=== FILE: README.md ===
# Quer command queue, modelled in Dafny

Quer is a small command-line tool for queuing shell commands. The user types
commands one per line. The tool then runs them (RUN), saves them as a script
file (RECORD), or replays a saved script (PLAY). The heart of the tool is
`Quer::Run`. It reads lines, sorts each into a directive (`done`, `quit`,
`show`, `undo`, `undo <n>`, `undo all`) or a command, edits an in-memory
queue, and flushes the queue at the end. RECORD writes the queue to the
script; RUN and PLAY hand each command to the shell.

This project models two versions of that loop:

- the current one, in `source/Quer.h`;
- an earlier one, in `QuerDevelopment/src/Quer.cpp`.

It also models both versions' `main`, which turns the argument vector into
an action.

Modules:

- `Base`: `Option` and `RunMode`.
- `IntParse`: `std::stoi` as `undo <n>` uses it. It skips white space, takes
  an optional sign and then the longest run of digits, and ignores the rest
  (section 7.22.1.4 of ISO C11). No digits gives `invalid_argument`. A value
  outside the 32-bit `int` gives `out_of_range`.
- `ScriptFile`:
  - the script path, `C:/querscripts/<name>.bat` (`.querscript` in the
    earlier version);
  - the text the RECORD flush writes;
  - the lines repeated `std::getline` calls read back.
- `Editor`: one line against the queue (`Classify`, `Interpret`), with one
  lemma per directive.
- `SessionSpec`: the whole session as a function of its inputs:
  - the checks before any line is read;
  - the loop;
  - the flush;
  - lemmas about all three, including the record-then-play round trip.
- `Session`: the session as the program runs it. The class `QueueSession`
  has `queue`, `index` and `console` fields that change line by line
  (`push_back`, `pop_back`, `erase`, `clear`). The module's `Run` method is
  proved equal to `SessionSpec.RunSpec`.
- `Legacy`: the earlier version, as a specification function, a class and a
  driver, with its own lemmas.
- `Cli`: both versions of `main`, each as a total function from `argv` to
  an `Action`.

Inputs and effects are modelled as follows:

- Terminal input is a finite sequence of lines. The end of that sequence is
  the end of input.
- The script directory is a `map` from path to file text. `exists` is
  membership in it, and the empty path never exists.
- Whether the input stream is readable is a boolean parameter.
- Each `system` call appends its command to an `executed` sequence in the
  result.
- A Dafny `char` stands for one byte of a `std::string`, so `substr(0, 4)`
  and `substr(5)` count characters of the model exactly as the code counts
  bytes. Reading a UTF-8 line such as `undoé2` character by character is not
  what the code does; the model's strings are byte strings.
- Commands reach the script file and the shell through `c_str()`, so both
  see a command only up to its first NUL character (`CStr`). A line read by
  `getline` can hold a NUL.
- What the program prints is kept as a sequence of message kinds. The
  wording is not modelled.

In a few places the code does not do what the tool's usage notes suggest.
The model follows the code:

- On an empty queue, every line that starts with `undo` is a warned no-op.
  That includes `undo all` and `undo 3`.
- The argument of `undo` is everything after the fifth character, whatever
  that character is. So `undox2` removes the second command, and any line
  starting with `undo` can never be queued.
- `stoi` runs before the check for `all`. So `undo 00all` parses as 0 and
  is reported as out of range.
- `undo <n>` with `n <= 0` is rejected as out of range. The reason is that
  `n - 1` is compared as an unsigned `size_t`, not that the code checks
  for a positive number.
- `show` and every other directive line use up a prompt number.
- In RUN and RECORD the loop is `while (!abort)`, with the `getline` call inside its body. So when the input ends, the body still runs once more on the line that the failed `getline` left empty. That empty line is queued as a command. A RUN session that ends without `done` therefore finishes by handing an empty command to the shell, and a RECORD session ends its script with an empty line. The earlier version loops on `while (getline(...))` and does not do this.

## Model

| member | source | states |
|---|---|---|
| `IntParse.Convert` | source/Quer.h:143 | `strtol` after the white space: a parsed value fits a 32-bit `int`; its result on every input is fixed by `StoiOfNumber` and `StoiWithoutDigits` |
| `IntParse.Stoi` | source/Quer.h:143 | a parsed value always fits a 32-bit `int` |
| `IntParse.StoiOfNumber` | source/Quer.h:143 | for white space, an optional sign, digits and a tail that does not start with a digit: `stoi` gives the signed value of the digits, or `out_of_range` when it does not fit; the tail is ignored |
| `IntParse.StoiWithoutDigits` | source/Quer.h:142-151 | when no digit follows the white space and the optional sign, `stoi` gives `invalid_argument` |
| `IntParse.StoiOfDecimal` | source/Quer.h:143 | round trip: `stoi` reads back the decimal spelling of every `int` |
| `ScriptFile.FormatPath` | source/Quer.h:38 | no name gives the empty path; a name gives directory + name + extension, of exactly that length |
| `ScriptFile.ScriptPath` | source/Quer.h:38 | the `.bat` path is empty exactly when there is no name; otherwise the name can be read back from it |
| `ScriptFile.LegacyScriptPath` | QuerDevelopment/src/Quer.cpp:37 | the same for the earlier `.querscript` path |
| `ScriptFile.NameOfFormatPath` | source/Quer.h:38 | the name is recovered from its path |
| `ScriptFile.FormatPathInjective` | source/Quer.h:38 | two different names never share a script file |
| `ScriptFile.CStr` | source/Quer.h:174 | what `c_str()` shows a C function: a prefix of the string, holding no NUL, that stops only at a NUL; a string without NUL is shown whole |
| `ScriptFile.CStrs` | source/Quer.h:180-183 | the commands as the shell sees them, one per queued command; a queue without NUL is unchanged, and one without `'\n'` stays so |
| `ScriptFile.CStrsSnoc` | source/Quer.h:180-183 | one more command adds exactly its cut at the end |
| `ScriptFile.Render` | source/Quer.h:171-175 | no contract; the text the RECORD flush writes, specified by `RenderSnoc`, `GetLinesOfRender` and `Session.FlushQueue` |
| `ScriptFile.RenderSnoc` | source/Quer.h:171-175 | writing one more command appends exactly that command, up to its first NUL, and `'\n'` to the script text |
| `ScriptFile.GetLines` | source/Quer.h:99 | no line read by `getline` contains `'\n'` |
| `ScriptFile.GetLinesOfRender` | source/Quer.h:169-175 | round trip: reading the written script back line by line gives the queue, each command cut at its first NUL, provided no command holds a `'\n'` |
| `Editor.Classify` | source/Quer.h:114-164 | a line is a queued command exactly when it is not `done`, `quit` or `show` and does not start with `undo`; the argument of `undo` is the text after its fifth character |
| `Editor.PredInt32` | source/Quer.h:143 | `n - 1` stays a 32-bit `int`; it is the true difference except at `INT_MIN` |
| `Editor.ToSize` | source/Quer.h:144 | the `int` is taken modulo 2^64 as a `size_t`: a non-negative index is unchanged and a negative one `x` becomes `x + 2^64`, beyond any queue size |
| `Editor.Interpret` | source/Quer.h:114-164 | no contract; one line against the queue, specified by `EnqueueAppends`, `ShowLists`, `DoneAndQuitStop` and the `Undo...` lemmas |
| `Editor.UndoWith` | source/Quer.h:140-158 | no contract; `undo <arg>` on a non-empty queue, specified by `UndoRemovesNth`, `UndoOutOfRange`, `UndoAllClears`, `UndoGarbageKeeps` and `UndoOverflowCrashes` |
| `Editor.EnqueueAppends` | source/Quer.h:161-164 | a non-directive line is appended verbatim at the end; all earlier entries are unchanged |
| `Editor.OnlyPlainLinesGrow` | source/Quer.h:114-164 | the queue grows exactly when the line is a command, and by at most one |
| `Editor.ListingNumbers` | source/Quer.h:127 | the listing has one entry per queued command, the i-th numbered `from + i` |
| `Editor.ListingSnoc` | source/Quer.h:127 | listing one more command appends exactly its numbered entry |
| `Editor.ShowLists` | source/Quer.h:124-128 | `show` leaves the queue unchanged and prints the header, then the entries numbered 1..\|queue\| in queue order |
| `Editor.DoneAndQuitStop` | source/Quer.h:115-123 | `done` stops the loop for the flush and `quit` cancels it; neither changes the queue |
| `Editor.UndoOnEmpty` | source/Quer.h:130-133 | every line starting with `undo` is a warned no-op on an empty queue |
| `Editor.UndoRemovesLast` | source/Quer.h:135-139 | bare `undo` removes exactly the last entry |
| `Editor.UndoRemovesNth` | source/Quer.h:143-148 | `undo <n>` with 1 <= n <= \|queue\| removes exactly the n-th entry: the others keep their order, the multiset loses just that entry, and the removal is reported |
| `Editor.UndoOutOfRange` | source/Quer.h:143-145 | `undo <n>` with n <= 0 or n > \|queue\| leaves the queue unchanged and reports the range (for queues of at most INT_MAX entries) |
| `Editor.UndoAllClears` | source/Quer.h:151-155 | on a non-empty queue, every line starting with `undo` whose text after the fifth character is exactly `all` empties the queue and reports it |
| `Editor.UndoGarbageKeeps` | source/Quer.h:151-156 | an argument that is neither a number nor `all` leaves the queue unchanged and reports a format error |
| `Editor.UndoOverflowCrashes` | source/Quer.h:142-151 | a number outside the `int` range escapes as `out_of_range` and ends the program |
| `Editor.EraseAtKeepsOthers` | source/Quer.h:148 | erasing one position only keeps entries that were already there |
| `Editor.EntriesComeFromQueueOrLine` | source/Quer.h:130-164 | after any line, each entry was already queued or is that line, and then the line is a command |
| `Editor.InterpretKeepsPlain` | source/Quer.h:130-164 | no directive can ever sit in the queue |
| `Editor.InterpretAvoids` | source/Quer.h:130-164 | a character that neither the queue nor the line holds is in no entry of the new queue |
| `SessionSpec.WriteScript` | source/Quer.h:171 | the `ofstream` replaces the file at a non-empty path; every other path keeps its existence and its text, and the empty path writes nothing |
| `SessionSpec.AtEndOfInput` | source/Quer.h:108-112 | no contract; the last pass at the end of input, specified by `EndOfInputQueuesEmptyLine` |
| `SessionSpec.Loop` | source/Quer.h:94-165 | no contract; the `while (!abort)` loop, specified by `LoopCounts`, `LoopKeepsPlain`, `LoopAvoids`, `PlainLinesToEnd`, `PlainLinesThenDone`, `QuitStopsLoop` and `HarmlessToEnd` |
| `SessionSpec.AfterLoop` | source/Quer.h:167-184 | no contract; the flush, specified by `AfterLoopEffects` |
| `SessionSpec.RunSpec` | source/Quer.h:35-186 | no contract; the whole session, specified by `AbortsBeforeReading`, `OnlyFlushActs`, `FlushEffects`, `QuitDiscards` and `PlayReplaysRecording`, and computed by `Session.Run` |
| `SessionSpec.EndOfInputQueuesEmptyLine` | source/Quer.h:108-112 | at the end of input RUN and RECORD print one more prompt and queue one empty command; PLAY stops with nothing printed or queued |
| `SessionSpec.HarmlessContinues` | source/Quer.h:114-164 | a line that is not `done` or `quit`, and not an `undo` whose number overflows, never stops the loop, whatever the queue |
| `SessionSpec.LoopCounts` | source/Quer.h:92-112 | the counter goes up by one per line read, plus one for the prompt printed before the end of input in RUN and RECORD; all lines are read when input ends; output is only appended |
| `SessionSpec.LoopKeepsPlain` | source/Quer.h:94-165 | the loop never queues a directive |
| `SessionSpec.LoopAvoids` | source/Quer.h:94-165 | queued commands are input lines or the empty line, so a character no input line holds (`'\n'`, NUL) is in no queued command |
| `SessionSpec.PlainLinesToEnd` | source/Quer.h:94-164 | commands up to the end of input are all queued, in order, followed in RUN and RECORD by the empty line of the last pass; the loop ends at the end of input |
| `SessionSpec.PlainLinesThenDone` | source/Quer.h:114-118 | commands followed by `done` are all queued in order, and nothing after `done` is read |
| `SessionSpec.QuitStopsLoop` | source/Quer.h:119-123 | `quit`, after any lines that do not stop the loop, ends the loop right there |
| `SessionSpec.HarmlessToEnd` | source/Quer.h:97-103 | input made only of lines that do not stop the loop is read to its end |
| `SessionSpec.AbortsBeforeReading` | source/Quer.h:38-87 | RECORD onto an existing script, PLAY of a missing one, or an unreadable input aborts with the matching reason; an aborted session read no line, printed no prompt, wrote no file and executed nothing |
| `SessionSpec.OnlyFlushActs` | source/Quer.h:119-123 | a cancelled or crashed session writes no script and executes nothing |
| `SessionSpec.AfterLoopEffects` | source/Quer.h:167-184 | the flush runs exactly after `done` or the end of input; RECORD writes `Render(queue)` and executes nothing; RUN and PLAY execute the commands in order, each cut at its first NUL; `quit` and a crash do neither |
| `SessionSpec.FlushEffects` | source/Quer.h:167-184 | after a flush, RECORD has written the queue as one `'\n'`-terminated line per command and executed nothing; RUN and PLAY have executed the queue in order, each command cut at its first NUL, and written nothing |
| `SessionSpec.QuitDiscards` | source/Quer.h:119-123 | `quit` typed at any point of a RUN or RECORD session leaves the scripts unchanged and executes nothing, whatever is queued |
| `SessionSpec.RunToEndExecutesEmptyLine` | source/Quer.h:94-183 | a RUN session of commands that ends without `done` executes them in order, each cut at its first NUL, and then one empty command, after reading every line |
| `SessionSpec.RecordWritesTypedCommands` | source/Quer.h:169-176 | the script written after typing commands and then `done` holds exactly those commands, one per line, in order, each cut at its first NUL |
| `SessionSpec.RecordedQueueReadsBack` | source/Quer.h:94-175 | what RECORD queues from NUL-free lines holds no directive and no NUL, and its script reads back as exactly that queue |
| `SessionSpec.RecordWritesQueue` | source/Quer.h:167-176 | a RECORD session that reaches its flush leaves its final queue as the text of its script and touches no other file |
| `SessionSpec.PlayRunsPlainScript` | source/Quer.h:97-107 | playing a script whose lines are NUL-free commands executes exactly those lines, in order, and writes nothing |
| `SessionSpec.PlayReplaysRecording` | source/Quer.h:97-183 | round trip: playing back what any RECORD session of NUL-free lines wrote executes exactly its final queue, in order, and changes no script |
| `SessionSpec.CStrOfDoneNul` | source/Quer.h:174 | the command `done\0x` reaches C functions as `done` |
| `SessionSpec.RecordDoneNul` | source/Quer.h:161-176 | recording `done\0x` then `done` queues the one command `done\0x` and writes its script |
| `SessionSpec.ScriptOfDoneNul` | source/Quer.h:171-175 | that script reads back as the single line `done` |
| `SessionSpec.PlayOfDone` | source/Quer.h:97-118 | playing a script that reads back as `done` executes nothing |
| `SessionSpec.NulBreaksReplay` | source/Quer.h:97-183 | without NUL-free lines the round trip fails: the recorded queue is `[done\0x]`, and playing its script executes nothing |
| `SessionSpec.UndoScenarioLoop` | source/Quer.h:130-139 | the loop of `mkdir foo`, `undo`, `mkdir bar`, `done` ends at `done` with only `mkdir bar` queued |
| `SessionSpec.UndoScenario` | source/Quer.h:130-139 | `mkdir foo`, `undo`, `mkdir bar`, `done` executes only `mkdir bar` |
| `SessionSpec.UndoTwoOfThree` | source/Quer.h:143-148 | `undo 2` on `a`, `b`, `c` leaves `a`, `c` and reports command 2 |
| `SessionSpec.UndoPositionScenario` | source/Quer.h:141-149 | `a`, `b`, `c`, `undo 2`, `done` executes `a` then `c` |
| `SessionSpec.FormatScenarioLoop` | source/Quer.h:151-156 | the loop of `a`, `b`, `undo xyz`, `done` ends at `done` with `a`, `b` queued and a format error printed |
| `SessionSpec.UndoFormatScenario` | source/Quer.h:151-156 | `a`, `b`, `undo xyz`, `done` reports a format error and executes `a` then `b` |
| `SessionSpec.StoiOfZeroAll` | source/Quer.h:143 | `stoi("00all")` is 0 |
| `SessionSpec.UndoZeroAllScenario` | source/Quer.h:142-156 | `undo 00all` parses as 0 before `all` is checked, so it is a range error and the queue stays |
| `Session.QueueSession.constructor` | source/Quer.h:89-92 | a session starts with an empty queue, counter 1 and nothing printed |
| `Session.QueueSession.Announce` | source/Quer.h:97-112 | the prompt (RUN, RECORD) or the echo of the line (PLAY) shows the current counter, which then goes up by one |
| `Session.QueueSession.LastPass` | source/Quer.h:108-164 | the last pass of the loop in RUN and RECORD prints the prompt and interprets the emptied line; PLAY does nothing; the new state is the specification's `AtEndOfInput` |
| `Session.QueueSession.Show` | source/Quer.h:124-128 | the `for_each` loop prints the header and then one numbered entry per queued command |
| `Session.QueueSession.UndoWithArgument` | source/Quer.h:140-158 | the in-place `erase`, `clear` or nothing for `undo <arg>`, equal to the specification's effect |
| `Session.QueueSession.Step` | source/Quer.h:114-164 | the in-place effect of one line on the queue and the output is the specification's `Interpret`; the counter is untouched |
| `Session.FlushQueue` | source/Quer.h:167-184 | the flush loops give the script text `Render(queue)` in RECORD, with nothing executed, or execute the queue in order in RUN and PLAY, each command cut at its first NUL, with no script written; the earlier version's flush (QuerDevelopment/src/Quer.cpp:120-138) is the same code and uses it too |
| `Session.ReadLoop` | source/Quer.h:92-165 | the imperative line loop ends in the state, with the ending and the line count, that the specification's `Loop` gives |
| `Session.Run` | source/Quer.h:35-186 | `Quer::Run` computes exactly `RunSpec`: the checks, the loop and the flush |
| `Legacy.LegacyInterpret` | QuerDevelopment/src/Quer.cpp:96-115 | no contract; one line of the earlier version, specified by `LegacyAppends`, `LegacyUndoRemovesLast`, `LegacyUndoOnEmptyIsQueued` and `LegacyInterpretKeepsShape` |
| `Legacy.LegacyLoop` | QuerDevelopment/src/Quer.cpp:92-118 | no contract; the `while (getline(...))` loop, specified by `LegacyLoopCounts`, `LegacyReadsToEnd`, `LegacyDoneStopsLoop`, `LegacyQuitStopsLoop`, `LegacyLoopKeepsShape` and `LegacyLoopAvoids` |
| `Legacy.LegacyRunSpec` | QuerDevelopment/src/Quer.cpp:34-140 | no contract; the earlier session, specified by `LegacyAbortsBeforeReading`, `LegacyFlushEffects`, `LegacyDoneFlushes`, `LegacyQuitDiscards` and `LegacyPlayReplaysRecording`, and computed by `Legacy.LegacyRun` |
| `Legacy.LegacyAppends` | QuerDevelopment/src/Quer.cpp:112-115 | any line other than `done`, `quit`, or `undo` on a non-empty queue is appended verbatim at the end |
| `Legacy.LegacyUndoRemovesLast` | QuerDevelopment/src/Quer.cpp:107-110 | `undo` on a non-empty queue removes exactly the last entry |
| `Legacy.LegacyUndoOnEmptyIsQueued` | QuerDevelopment/src/Quer.cpp:107-115 | `undo` on an empty queue is itself queued as a command |
| `Legacy.LegacyLoopCounts` | QuerDevelopment/src/Quer.cpp:92-118 | the prompt counter goes up by exactly one after each line that does not stop the loop; all lines are read when input ends |
| `Legacy.LegacyAbortsBeforeReading` | QuerDevelopment/src/Quer.cpp:36-87 | RECORD onto an existing script, PLAY of a missing one, or an unreadable input returns with the matching reason before any line is read, with no effect |
| `Legacy.LegacyFlushEffects` | QuerDevelopment/src/Quer.cpp:94-138 | only a flush has effects; after `done` or the end of input, RECORD writes one `'\n'`-terminated line per command, and RUN and PLAY execute the queue in order, each command cut at its first NUL |
| `Legacy.LegacyReadsToEnd` | QuerDevelopment/src/Quer.cpp:94-118 | only `done`, `quit` and the end of input stop the loop |
| `Legacy.LegacyQuitStopsLoop` | QuerDevelopment/src/Quer.cpp:101-105 | `quit` after any lines other than `done` and `quit` ends the loop right there |
| `Legacy.LegacyDoneStopsLoop` | QuerDevelopment/src/Quer.cpp:94-100 | `done` after any lines other than `done` and `quit` ends the loop right there, leaving the state the end of the input after those lines would leave; nothing after it is read |
| `Legacy.LegacyDoneFlushes` | QuerDevelopment/src/Quer.cpp:94-138 | `done` typed at any point of a RUN or RECORD session flushes the queue built by the lines before it: RECORD writes it as the script, RUN executes it, each command cut at its first NUL |
| `Legacy.LegacyQuitDiscards` | QuerDevelopment/src/Quer.cpp:101-105 | `quit` typed at any point of a RUN or RECORD session cancels it, with no script written and nothing executed |
| `Legacy.LegacyInterpretKeepsShape` | QuerDevelopment/src/Quer.cpp:96-115 | the queue never holds `done` or `quit`, and holds `undo` only as its first entry |
| `Legacy.LegacyLoopKeepsShape` | QuerDevelopment/src/Quer.cpp:94-118 | the loop keeps that shape |
| `Legacy.LegacyLoopAvoids` | QuerDevelopment/src/Quer.cpp:94-118 | queued commands are input lines, so a character no input line holds (`'\n'`, NUL) is in no queued command |
| `Legacy.LegacyReplaysShape` | QuerDevelopment/src/Quer.cpp:94-118 | lines without `done` or `quit`, with `undo` at most first and only onto an empty queue, are all queued again in order |
| `Legacy.LegacyShapeReplays` | QuerDevelopment/src/Quer.cpp:94-118 | a queue of that shape, played from the start, is queued again whole |
| `Legacy.LegacyPlayReplaysRecording` | QuerDevelopment/src/Quer.cpp:94-138 | round trip: playing back a script recorded from NUL-free lines executes exactly the recorded queue, even one that starts with a queued `undo` |
| `Legacy.LegacySession.constructor` | QuerDevelopment/src/Quer.cpp:89-93 | the session starts with an empty queue, counter 1 and the first prompt printed |
| `Legacy.LegacySession.Step` | QuerDevelopment/src/Quer.cpp:96-117 | the in-place effect of one line; when the loop goes on, the counter goes up by one and the next prompt shows it |
| `Legacy.LegacyReadLoop` | QuerDevelopment/src/Quer.cpp:94-118 | the imperative loop ends where the specification's `LegacyLoop` does |
| `Legacy.LegacyRun` | QuerDevelopment/src/Quer.cpp:34-140 | the earlier `Quer::Run` computes exactly `LegacyRunSpec` |
| `Cli.Dispatch` | source/Main.cpp:19-81 | no arguments gives a RUN session, and only that one has no name; each short/long flag pair maps to exactly one action; `-r`/`--record` or `-p`/`--play` with a name starts RECORD or PLAY on that name, and without a name is a missing-name error |
| `Cli.DispatchRejectsExtraArguments` | source/Main.cpp:77-80 | more than two arguments, or an empty argument vector, is a syntax error |
| `Cli.DispatchRejectsUnknownFlags` | source/Main.cpp:55-58 | a single argument that is no known flag is a syntax error |
| `Cli.DispatchRejectsNameAfterOtherFlags` | source/Main.cpp:72-75 | two arguments whose first is not a record or play flag are a syntax error, even after a known flag such as `-v` |
| `Cli.LegacyDispatch` | QuerDevelopment/src/Quer.cpp:201-263 | the same classification for the earlier flags: `-version`, `-help`, `-u`/`-update`, `-where`, `-clean`, `-record`, `-play`; a RUN session is started only by the bare command |
| `Cli.LegacyDispatchRejectsExtraArguments` | QuerDevelopment/src/Quer.cpp:259-262 | more than two arguments, or an empty argument vector, is a syntax error |
| `Cli.LegacyDispatchRejectsUnknownFlags` | QuerDevelopment/src/Quer.cpp:237-240 | a single argument that is no known earlier flag is a syntax error |
| `Cli.LegacyDispatchRejectsNameAfterOtherFlags` | QuerDevelopment/src/Quer.cpp:254-257 | two arguments whose first is not `-r`/`-record` or `-p`/`-play` are a syntax error |
| `Cli.ShortFlagsAgree` | source/Main.cpp:23-71 | both versions treat the bare command and `-r`/`-p` with a name alike |

## Left out

- Printed text. Banners, instructions and message wording are not modelled, nor are `Help` and `Version`; only the kind of each message is kept.
- Directory actions. `ListScripts`, `FindScripts` and `Clean`, and the earlier `Update`, `Where` and `Clean`, list or open or delete the script directory, or only print. They are modelled as the `Action` that `main` selects, not as their effects.
- End of input in RUN and RECORD. The model takes the line left by the failed `getline` to be empty. That is what happens when the stream was still good before the call. If the input's last line has no `'\n'`, the stream is already at its end, and the previous line would be interpreted a second time instead. The model does not cover that case.
- Command execution. `system` is recorded as the command handed to the shell. Its effects and exit codes are not modelled.
- The filesystem. `std::filesystem::exists`, the `ifstream`/`ofstream` handles and the `unique_ptr` deleter are reduced to a map of script texts and a readable-or-not flag. Text-mode newline translation is not modelled.
- Opening the script for writing. The model assumes the `ofstream` opens on every non-empty path. The real one fails silently when `C:/querscripts/` is missing or the name is not a valid file name, and RECORD then writes nothing.
- Printed commands. Echoes, listings and removal messages carry the whole line. The code prints them with `%s` of `c_str()`, which stops at the first NUL.
- Printed numbers. Prompt and command numbers are unbounded naturals. The code prints them through `unsigned int` with `%d`, which wraps after 2^31 lines.
- Undefined behaviour. `INT_MIN - 1` in `undo -2147483648` is taken as the two's-complement wrap to `INT_MAX`. An `erase` at a negative index, which would need a queue of more than 2^63 entries, is modelled as an erase at that index modulo 2^64.
- The crash. An uncaught `std::out_of_range` from `stoi` ends the session as `Terminated` with nothing flushed. The runtime's termination itself is not modelled.
- `Editor.UndoOutOfRange`: stated for queues of at most `INT_MAX` entries. Above that, `undo -2147483648` would wrap to a valid index.
- SessionSpec.PlayReplaysRecording: stated for typed lines without NUL. A command such as `done\0x` is queued whole but written as `done`, which stops playback; `NulBreaksReplay` proves it.
- Legacy.LegacyPlayReplaysRecording: stated for typed lines without NUL, for the same reason.

=== FILE: Base.dfy ===
/** Types shared by both versions of the command queue. */
module Base {

  /** A value that may be absent, as a `const char*` that may be null. */
  datatype Option<+T> = None | Some(value: T)

  /** How a session ends its queue: run it, record it to a script, or play a script back. */
  datatype RunMode = Run | Record | Play

  /** No string of `ss` holds the character `ch`. */
  predicate Avoids(ss: seq<string>, ch: char) {
    forall i :: 0 <= i < |ss| ==> ch !in ss[i]
  }
}

=== FILE: Cli.dfy ===
/**
 * `main`: what the program does for its argument vector. `argv[0]` is the
 * program's own path, so `argc == |argv|` and the first argument is `argv[1]`.
 * Every argument vector selects exactly one action.
 */
module Cli {
  import opened Base

  datatype SyntaxError = MissingScriptName | UnknownArgument

  datatype Action =
    | StartSession(mode: RunMode, name: Option<string>)
    | Version
    | Help
    | ListScripts
    | FindScripts
    | Clean
    | Update                       // earlier version only
    | Where                        // earlier version only
    | InvalidSyntax(error: SyntaxError)

  // ---------------------------------------------------------------------------
  // Current version

  predicate IsRecordFlag(arg: string) { arg == "-r" || arg == "--record" }
  predicate IsPlayFlag(arg: string) { arg == "-p" || arg == "--play" }

  /** `main` of the current version. */
  function Dispatch(argv: seq<string>): (a: Action)
    ensures a == StartSession(Run, None) <==> |argv| == 1
    ensures a.StartSession? && a.mode == Run ==> a.name == None
    ensures (a.StartSession? && a.mode == Record) <==> |argv| == 3 && IsRecordFlag(argv[1])
    ensures (a.StartSession? && a.mode == Play) <==> |argv| == 3 && IsPlayFlag(argv[1])
    ensures a.StartSession? && a.mode != Run ==> |argv| == 3 && a.name == Some(argv[2])
    ensures a == Version <==> |argv| == 2 && (argv[1] == "-v" || argv[1] == "--version")
    ensures a == Help <==> |argv| == 2 && (argv[1] == "-h" || argv[1] == "--help")
    ensures a == ListScripts <==> |argv| == 2 && (argv[1] == "-ls" || argv[1] == "--listscripts")
    ensures a == FindScripts <==> |argv| == 2 && (argv[1] == "-fs" || argv[1] == "--findscripts")
    ensures a == Clean <==> |argv| == 2 && (argv[1] == "-c" || argv[1] == "--clean")
    ensures a == InvalidSyntax(MissingScriptName) <==> |argv| == 2 && (IsRecordFlag(argv[1]) || IsPlayFlag(argv[1]))
    ensures !a.Update? && !a.Where?
  {
    if |argv| == 1 then StartSession(Run, None)
    else if |argv| == 2 then
      var arg := argv[1];
      if arg == "-v" || arg == "--version" then Version
      else if arg == "-h" || arg == "--help" then Help
      else if arg == "-ls" || arg == "--listscripts" then ListScripts
      else if arg == "-fs" || arg == "--findscripts" then FindScripts
      else if arg == "-c" || arg == "--clean" then Clean
      else if IsRecordFlag(arg) || IsPlayFlag(arg) then InvalidSyntax(MissingScriptName)
      else InvalidSyntax(UnknownArgument)
    else if |argv| == 3 then
      if IsRecordFlag(argv[1]) then StartSession(Record, Some(argv[2]))
      else if IsPlayFlag(argv[1]) then StartSession(Play, Some(argv[2]))
      else InvalidSyntax(UnknownArgument)
    else InvalidSyntax(UnknownArgument)
  }

  /** An empty argument vector, or one with more than two arguments, is a syntax error. */
  lemma DispatchRejectsExtraArguments(argv: seq<string>)
    requires |argv| > 3 || |argv| == 0
    ensures Dispatch(argv) == InvalidSyntax(UnknownArgument)
  {
  }

  /** A flag that is not one of the known ones is a syntax error. */
  lemma DispatchRejectsUnknownFlags(argv: seq<string>)
    requires |argv| == 2
    requires argv[1] !in {"-v", "--version", "-h", "--help", "-ls", "--listscripts", "-fs", "--findscripts",
                          "-c", "--clean", "-r", "--record", "-p", "--play"}
    ensures Dispatch(argv) == InvalidSyntax(UnknownArgument)
  {
  }

  /** A name after anything but a record or play flag is a syntax error, even after a known flag. */
  lemma DispatchRejectsNameAfterOtherFlags(argv: seq<string>)
    requires |argv| == 3 && !IsRecordFlag(argv[1]) && !IsPlayFlag(argv[1])
    ensures Dispatch(argv) == InvalidSyntax(UnknownArgument)
  {
  }

  // ---------------------------------------------------------------------------
  // Earlier version: single-dash long flags, `-u`/`-update` and `-where`, no script listing

  predicate IsLegacyRecordFlag(arg: string) { arg == "-r" || arg == "-record" }
  predicate IsLegacyPlayFlag(arg: string) { arg == "-p" || arg == "-play" }

  /** `main` of the earlier version. */
  function LegacyDispatch(argv: seq<string>): (a: Action)
    ensures a == StartSession(Run, None) <==> |argv| == 1
    ensures a.StartSession? && a.mode == Run ==> a.name == None
    ensures (a.StartSession? && a.mode == Record) <==> |argv| == 3 && IsLegacyRecordFlag(argv[1])
    ensures (a.StartSession? && a.mode == Play) <==> |argv| == 3 && IsLegacyPlayFlag(argv[1])
    ensures a.StartSession? && a.mode != Run ==> |argv| == 3 && a.name == Some(argv[2])
    ensures a == Version <==> |argv| == 2 && (argv[1] == "-v" || argv[1] == "-version")
    ensures a == Help <==> |argv| == 2 && (argv[1] == "-h" || argv[1] == "-help")
    ensures a == Update <==> |argv| == 2 && (argv[1] == "-u" || argv[1] == "-update")
    ensures a == Where <==> |argv| == 2 && argv[1] == "-where"
    ensures a == Clean <==> |argv| == 2 && (argv[1] == "-c" || argv[1] == "-clean")
    ensures a == InvalidSyntax(MissingScriptName) <==>
              |argv| == 2 && (IsLegacyRecordFlag(argv[1]) || IsLegacyPlayFlag(argv[1]))
    ensures !a.ListScripts? && !a.FindScripts?
  {
    if |argv| == 1 then StartSession(Run, None)
    else if |argv| == 2 then
      var arg := argv[1];
      if arg == "-v" || arg == "-version" then Version
      else if arg == "-h" || arg == "-help" then Help
      else if arg == "-u" || arg == "-update" then Update
      else if arg == "-where" then Where
      else if arg == "-c" || arg == "-clean" then Clean
      else if IsLegacyRecordFlag(arg) || IsLegacyPlayFlag(arg) then InvalidSyntax(MissingScriptName)
      else InvalidSyntax(UnknownArgument)
    else if |argv| == 3 then
      if IsLegacyRecordFlag(argv[1]) then StartSession(Record, Some(argv[2]))
      else if IsLegacyPlayFlag(argv[1]) then StartSession(Play, Some(argv[2]))
      else InvalidSyntax(UnknownArgument)
    else InvalidSyntax(UnknownArgument)
  }

  /** An empty argument vector, or one with more than two arguments, is a syntax error in the earlier version too. */
  lemma LegacyDispatchRejectsExtraArguments(argv: seq<string>)
    requires |argv| > 3 || |argv| == 0
    ensures LegacyDispatch(argv) == InvalidSyntax(UnknownArgument)
  {
  }

  /** A flag the earlier version does not know is a syntax error. */
  lemma LegacyDispatchRejectsUnknownFlags(argv: seq<string>)
    requires |argv| == 2
    requires argv[1] !in {"-v", "-version", "-h", "-help", "-u", "-update", "-where", "-c", "-clean",
                          "-r", "-record", "-p", "-play"}
    ensures LegacyDispatch(argv) == InvalidSyntax(UnknownArgument)
  {
  }

  /** In the earlier version too, a name after anything but a record or play flag is a syntax error. */
  lemma LegacyDispatchRejectsNameAfterOtherFlags(argv: seq<string>)
    requires |argv| == 3 && !IsLegacyRecordFlag(argv[1]) && !IsLegacyPlayFlag(argv[1])
    ensures LegacyDispatch(argv) == InvalidSyntax(UnknownArgument)
  {
  }

  /** The two versions agree on sessions started with short flags, and on the bare command. */
  lemma ShortFlagsAgree(argv: seq<string>)
    requires |argv| == 1 || (|argv| == 3 && argv[1] in {"-r", "-p"})
    ensures Dispatch(argv) == LegacyDispatch(argv)
  {
  }
}

=== FILE: Editor.dfy ===
/**
 * How the current version's session interprets one input line: which
 * directive it is, what it does to the queue of commands and which message
 * it prints. Everything here is a pure function of the queue and the line.
 */
module Editor {
  import opened Base
  import opened IntParse

  /** The kinds of line, checked in this order: done, quit, show, undo, anything else. */
  datatype Directive =
    | Done
    | Quit
    | Show
    | UndoLast              // exactly "undo"
    | UndoArg(arg: string)  // "undo" plus at least one character; arg is what follows the fifth character
    | Enqueue

  /** What the loop does after a line. `Crash` is the uncaught `std::out_of_range` of `stoi`. */
  datatype Control = Continue | Finish | Cancel | Crash

  /** What the session prints, by kind (the wording of the text is not modelled). */
  datatype Message =
    | Prompt(number: nat)                 // "n. " before a line is read in RUN and RECORD
    | Echo(number: nat, line: string)     // "n. line" after a line is read in PLAY
    | ListingHeader                       // "Showing Current Commands:"
    | ListingEntry(position: nat, command: string)
    | EmptyQueueWarning                   // undo of any kind on an empty queue
    | WillNotPerform(number: nat)         // bare undo
    | Removed(position: nat, command: string)
    | RangeError(size: nat)               // undo <n> out of 1..size
    | AllErased                           // undo all
    | FormatError                         // undo <neither a number nor "all">

  /** The effect of one line: whether the loop goes on, the new queue and what was printed. */
  datatype Effect = Effect(control: Control, queue: seq<string>, output: seq<Message>)

  const Modulus64: int := 0x1_0000_0000_0000_0000

  /** A line whose first four characters are "undo" (`substr(0, 4) == "undo"`). */
  predicate StartsWithUndo(line: string) {
    |line| >= 4 && line[..4] == "undo"
  }

  function Classify(line: string): (d: Directive)
    ensures d == Enqueue <==> line != "done" && line != "quit" && line != "show" && !StartsWithUndo(line)
    ensures d.UndoArg? ==> StartsWithUndo(line) && |line| > 4 && d.arg == line[5..]
  {
    if line == "done" then Done
    else if line == "quit" then Quit
    else if line == "show" then Show
    else if StartsWithUndo(line) then (if |line| == 4 then UndoLast else UndoArg(line[5..]))
    else Enqueue
  }

  /** A line the session queues as a command. */
  predicate IsPlain(line: string) {
    Classify(line) == Enqueue
  }

  predicate AllPlain(q: seq<string>) {
    forall i :: 0 <= i < |q| ==> IsPlain(q[i])
  }

  /** `x - 1` on a 32-bit `int`; `INT_MIN - 1` is undefined in C++ and taken as the two's-complement wrap. */
  function PredInt32(x: int): (r: int)
    requires IntMin <= x <= IntMax
    ensures IntMin <= r <= IntMax
    ensures x > IntMin ==> r == x - 1
  {
    if x == IntMin then IntMax else x - 1
  }

  /** An `int` converted to the 64-bit `size_t` it is compared with. */
  function ToSize(x: int): (r: nat)
    ensures r < Modulus64
    ensures 0 <= x < Modulus64 ==> r == x
    ensures -Modulus64 <= x < 0 ==> r == x + Modulus64
  {
    x % Modulus64
  }

  /** The queue printed by `show`, numbered from `from` on. */
  function Listing(q: seq<string>, from: nat): (out: seq<Message>)
    decreases |q|
  {
    if q == [] then [] else [ListingEntry(from, q[0])] + Listing(q[1..], from + 1)
  }

  /** The queue with its entry at `k` (0-based) erased. */
  function EraseAt(q: seq<string>, k: nat): seq<string>
    requires k < |q|
  {
    q[..k] + q[k + 1..]
  }

  /** One input line against the queue `q`. */
  function Interpret(q: seq<string>, line: string): Effect {
    match Classify(line)
    case Done => Effect(Finish, q, [])
    case Quit => Effect(Cancel, q, [])
    case Show => Effect(Continue, q, [ListingHeader] + Listing(q, 1))
    case UndoLast =>
      if q == [] then Effect(Continue, q, [EmptyQueueWarning])
      else Effect(Continue, q[..|q| - 1], [WillNotPerform(|q| + 1)])
    case UndoArg(arg) =>
      if q == [] then Effect(Continue, q, [EmptyQueueWarning])
      else UndoWith(q, arg)
    case Enqueue => Effect(Continue, q + [line], [])
  }

  /** `undo <arg>` on a non-empty queue: a position, else "all", else a format error. */
  function UndoWith(q: seq<string>, arg: string): Effect
    requires q != []
  {
    match Stoi(arg)
    case OutOfRange => Effect(Crash, q, [])
    case InvalidArgument =>
      if arg == "all" then Effect(Continue, [], [AllErased])
      else Effect(Continue, q, [FormatError])
    case Parsed(n) =>
      var k := ToSize(PredInt32(n));
      if k >= |q| then Effect(Continue, q, [RangeError(|q|)])
      else Effect(Continue, EraseAt(q, k), [Removed(k + 1, q[k])])
  }

  // ---------------------------------------------------------------------------
  // What each directive does

  /** A line that is no directive is appended verbatim; every earlier entry stays. */
  lemma EnqueueAppends(q: seq<string>, line: string)
    requires IsPlain(line)
    ensures var e := Interpret(q, line);
            e.control == Continue && |e.queue| == |q| + 1 &&
            e.queue[..|q|] == q && e.queue[|q|] == line && e.output == []
  {
  }

  /** Only a plain line makes the queue grow, and nothing makes it grow by more than one. */
  lemma OnlyPlainLinesGrow(q: seq<string>, line: string)
    ensures |Interpret(q, line).queue| <= |q| + 1
    ensures |Interpret(q, line).queue| > |q| <==> IsPlain(line)
  {
  }

  lemma {:induction false} ListingNumbers(q: seq<string>, from: nat)
    ensures |Listing(q, from)| == |q|
    ensures forall i :: 0 <= i < |q| ==> Listing(q, from)[i] == ListingEntry(from + i, q[i])
  {
    if q != [] {
      ListingNumbers(q[1..], from + 1);
    }
  }

  /** Listing one more entry appends exactly that entry's line, numbered after the others. */
  lemma {:induction false} ListingSnoc(q: seq<string>, c: string, from: nat)
    ensures Listing(q + [c], from) == Listing(q, from) + [ListingEntry(from + |q|, c)]
    decreases |q|
  {
    if q == [] {
      assert q + [c] == [c];
    } else {
      assert (q + [c])[1..] == q[1..] + [c];
      ListingSnoc(q[1..], c, from + 1);
    }
  }

  /** `show` leaves the queue alone and lists its entries numbered 1..|q| in queue order. */
  lemma ShowLists(q: seq<string>)
    ensures var e := Interpret(q, "show");
            e.control == Continue && e.queue == q &&
            |e.output| == |q| + 1 && e.output[0] == ListingHeader &&
            forall i :: 0 <= i < |q| ==> e.output[i + 1] == ListingEntry(i + 1, q[i])
  {
    ListingNumbers(q, 1);
  }

  /** `done` and `quit` leave the queue as it is; they differ in whether the loop flushes it. */
  lemma DoneAndQuitStop(q: seq<string>)
    ensures Interpret(q, "done") == Effect(Finish, q, [])
    ensures Interpret(q, "quit") == Effect(Cancel, q, [])
  {
  }

  /** Every line that starts with "undo", "undo all" and "undo <n>" included, is a warned no-op on an empty queue. */
  lemma UndoOnEmpty(line: string)
    requires StartsWithUndo(line)
    ensures Interpret([], line) == Effect(Continue, [], [EmptyQueueWarning])
  {
    assert line != "done" && line != "quit" && line != "show" by {
      assert line[0] == 'u';
    }
    assert Classify(line).UndoLast? || Classify(line).UndoArg?;
  }

  /** Bare `undo` removes exactly the last entry. */
  lemma UndoRemovesLast(q: seq<string>)
    requires q != []
    ensures var e := Interpret(q, "undo");
            e.control == Continue && e.queue + [q[|q| - 1]] == q
  {
  }

  /** `undo <n>` with 1 <= n <= |q| removes exactly the n-th entry; the others keep their order. */
  lemma UndoRemovesNth(q: seq<string>, line: string, n: int)
    requires StartsWithUndo(line) && |line| > 4 && Stoi(line[5..]) == Parsed(n)
    requires 1 <= n <= |q|
    ensures var e := Interpret(q, line);
            && e.control == Continue
            && e.output == [Removed(n, q[n - 1])]
            && |e.queue| == |q| - 1
            && (forall i :: 0 <= i < n - 1 ==> e.queue[i] == q[i])
            && (forall i :: n - 1 <= i < |e.queue| ==> e.queue[i] == q[i + 1])
            && multiset(e.queue) + multiset{q[n - 1]} == multiset(q)
  {
    var k := n - 1;
    assert PredInt32(n) == k;
    assert ToSize(k) == k;
    assert q == q[..k] + [q[k]] + q[k + 1..];
  }

  /**
   * `undo <n>` with n <= 0 or n > |q| changes nothing and reports the range:
   * n - 1 is compared as an unsigned `size_t`, so a negative index is huge.
   * The bound on |q| covers `undo -2147483648`, whose n - 1 wraps to INT_MAX.
   */
  lemma UndoOutOfRange(q: seq<string>, line: string, n: int)
    requires StartsWithUndo(line) && |line| > 4 && Stoi(line[5..]) == Parsed(n)
    requires q != [] && |q| <= IntMax
    requires n <= 0 || n > |q|
    ensures Interpret(q, line) == Effect(Continue, q, [RangeError(|q|)])
  {
  }

  /**
   * An argument `stoi` rejects empties the queue when it is exactly "all",
   * whatever the fifth character is ("undo all", "undo\tall", "undo_all").
   */
  lemma UndoAllClears(q: seq<string>, line: string)
    requires StartsWithUndo(line) && |line| > 4 && line[5..] == "all"
    requires q != []
    ensures Interpret(q, line) == Effect(Continue, [], [AllErased])
  {
    StoiWithoutDigits("", "", "all");
    assert "" + "" + "all" == "all";
  }

  /** Any other argument `stoi` rejects changes nothing and reports a format error. */
  lemma UndoGarbageKeeps(q: seq<string>, line: string)
    requires StartsWithUndo(line) && |line| > 4
    requires Stoi(line[5..]) == InvalidArgument && line[5..] != "all"
    ensures q != [] ==> Interpret(q, line) == Effect(Continue, q, [FormatError])
  {
  }

  /** A number too large for an `int` escapes as `out_of_range` and ends the program. */
  lemma UndoOverflowCrashes(q: seq<string>, line: string)
    requires StartsWithUndo(line) && |line| > 4 && Stoi(line[5..]) == OutOfRange
    requires q != []
    ensures Interpret(q, line).control == Crash && Interpret(q, line).queue == q
  {
  }

  lemma EraseAtKeepsOthers(q: seq<string>, k: nat)
    requires k < |q|
    ensures forall x :: x in EraseAt(q, k) ==> x in q
  {
    forall x | x in EraseAt(q, k) ensures x in q {
      var i :| 0 <= i < |EraseAt(q, k)| && EraseAt(q, k)[i] == x;
      if i < k {
        assert q[i] == x;
      } else {
        assert q[i + 1] == x;
      }
    }
  }

  /** Every entry after a line was already queued, or is that line when it is plain. */
  lemma EntriesComeFromQueueOrLine(q: seq<string>, line: string)
    ensures forall x :: x in Interpret(q, line).queue ==> x in q || (x == line && IsPlain(line))
  {
    match Classify(line)
    case UndoArg(arg) =>
      if q != [] {
        match Stoi(arg)
        case Parsed(n) =>
          var k := ToSize(PredInt32(n));
          if k < |q| {
            EraseAtKeepsOthers(q, k);
          }
        case _ =>
      }
    case UndoLast =>
      if q != [] {
        assert forall x :: x in q[..|q| - 1] ==> x in q;
      }
    case _ =>
  }

  /** Only commands are ever queued: no directive can sit in the queue. */
  lemma {:induction false} InterpretKeepsPlain(q: seq<string>, line: string)
    requires AllPlain(q)
    ensures AllPlain(Interpret(q, line).queue)
  {
    var r := Interpret(q, line).queue;
    forall i | 0 <= i < |r| ensures IsPlain(r[i]) {
      EntriesComeFromQueueOrLine(q, line);
      assert r[i] in r;
    }
  }

  /** Only commands from the queue or the line are kept, so a character none of them holds stays absent. */
  lemma {:induction false} InterpretAvoids(q: seq<string>, line: string, ch: char)
    requires Avoids(q, ch) && ch !in line
    ensures Avoids(Interpret(q, line).queue, ch)
  {
    var r := Interpret(q, line).queue;
    forall i | 0 <= i < |r| ensures ch !in r[i] {
      EntriesComeFromQueueOrLine(q, line);
      assert r[i] in r;
    }
  }
}

=== FILE: IntParse.dfy ===
/**
 * The integer parser behind `undo <n>`: `std::stoi`, which converts with
 * `strtol` in base 10 (section 7.22.1.4 of ISO C11) and then checks that the
 * value fits an `int`. Leading white space is skipped, an optional sign is
 * accepted, the longest run of decimal digits is converted and anything after
 * it is ignored. No digits at all is `invalid_argument`; a value outside the
 * 32-bit `int` range is `out_of_range`.
 */
module IntParse {

  const IntMin: int := -0x8000_0000
  const IntMax: int := 0x7FFF_FFFF

  datatype StoiResult = Parsed(value: int) | InvalidArgument | OutOfRange

  /** The characters `isspace` accepts in the "C" locale. */
  predicate IsSpace(c: char) {
    c == ' ' || c == '\t' || c == '\n' || c == '\U{B}' || c == '\U{C}' || c == '\r'
  }

  predicate IsDigit(c: char) {
    '0' <= c <= '9'
  }

  predicate AllSpace(s: string) {
    forall i :: 0 <= i < |s| ==> IsSpace(s[i])
  }

  predicate AllDigits(s: string) {
    forall i :: 0 <= i < |s| ==> IsDigit(s[i])
  }

  function DigitValue(c: char): (v: nat)
    requires IsDigit(c)
    ensures v < 10
  {
    (c as int) - ('0' as int)
  }

  function DigitChar(v: nat): (c: char)
    requires v < 10
    ensures IsDigit(c) && DigitValue(c) == v
  {
    ('0' as int + v) as char
  }

  /** Length of the white-space prefix of `s`. */
  function SpaceRun(s: string): (k: nat)
    ensures k <= |s| && AllSpace(s[..k])
    ensures k < |s| ==> !IsSpace(s[k])
  {
    if s == [] || !IsSpace(s[0]) then 0 else 1 + SpaceRun(s[1..])
  }

  /** Length of the decimal-digit prefix of `s`. */
  function DigitRun(s: string): (k: nat)
    ensures k <= |s| && AllDigits(s[..k])
    ensures k < |s| ==> !IsDigit(s[k])
  {
    if s == [] || !IsDigit(s[0]) then 0 else 1 + DigitRun(s[1..])
  }

  /** The number a string of decimal digits denotes, most significant digit first. */
  function DecimalValue(ds: string): nat
    requires AllDigits(ds)
  {
    if ds == [] then 0 else DecimalValue(ds[..|ds| - 1]) * 10 + DigitValue(ds[|ds| - 1])
  }

  /** `std::stoi(s)`, base 10: skip the white space, then convert. */
  function Stoi(s: string): (r: StoiResult)
    ensures r.Parsed? ==> IntMin <= r.value <= IntMax
  {
    Convert(s[SpaceRun(s)..])
  }

  /** The conversion after the white space: an optional sign, then the longest run of digits. */
  function Convert(t: string): (r: StoiResult)
    ensures r.Parsed? ==> IntMin <= r.value <= IntMax
  {
    var negative := |t| > 0 && t[0] == '-';
    var body := if |t| > 0 && (t[0] == '-' || t[0] == '+') then t[1..] else t;
    var d := DigitRun(body);
    if d == 0 then InvalidArgument
    else
      var magnitude: int := DecimalValue(body[..d]);
      var v := if negative then -magnitude else magnitude;
      if IntMin <= v <= IntMax then Parsed(v) else OutOfRange
  }

  /** The decimal spelling of a natural number, as `std::to_string` gives it. */
  function NatDigits(n: nat): (ds: string)
    ensures |ds| > 0 && AllDigits(ds)
  {
    if n < 10 then [DigitChar(n)] else NatDigits(n / 10) + [DigitChar(n % 10)]
  }

  /** The decimal spelling of an integer: a minus sign for negatives, no sign otherwise. */
  function Decimal(n: int): string {
    if n < 0 then "-" + NatDigits(-n) else NatDigits(n)
  }

  lemma {:induction false} DecimalValueOfNatDigits(n: nat)
    ensures DecimalValue(NatDigits(n)) == n
  {
    if n >= 10 {
      var ds := NatDigits(n);
      assert ds[..|ds| - 1] == NatDigits(n / 10);
      DecimalValueOfNatDigits(n / 10);
    }
  }

  lemma {:induction false} SpaceRunSkips(ws: string, t: string)
    requires AllSpace(ws)
    requires t == [] || !IsSpace(t[0])
    ensures SpaceRun(ws + t) == |ws|
  {
    if ws != [] {
      assert (ws + t)[1..] == ws[1..] + t;
      SpaceRunSkips(ws[1..], t);
    }
  }

  lemma {:induction false} DigitRunStops(ds: string, t: string)
    requires AllDigits(ds)
    requires t == [] || !IsDigit(t[0])
    ensures DigitRun(ds + t) == |ds|
  {
    if ds != [] {
      assert (ds + t)[1..] == ds[1..] + t;
      DigitRunStops(ds[1..], t);
    }
  }

  /** The signed value of a sign followed by digits, or `out_of_range` when it does not fit an `int`. */
  function SignedValue(sign: string, ds: string): StoiResult
    requires AllDigits(ds)
  {
    var v: int := if sign == "-" then -(DecimalValue(ds) as int) else DecimalValue(ds);
    if IntMin <= v <= IntMax then Parsed(v) else OutOfRange
  }

  lemma ConvertOfNumber(sign: string, ds: string, tail: string)
    requires sign == "" || sign == "+" || sign == "-"
    requires |ds| > 0 && AllDigits(ds)
    requires tail == [] || !IsDigit(tail[0])
    ensures Convert(sign + ds + tail) == SignedValue(sign, ds)
  {
    var t := sign + ds + tail;
    var body := ds + tail;
    if sign != "" {
      assert t == sign + body;
      assert t[1..] == body;
    } else {
      assert t == body;
    }
    DigitRunStops(ds, tail);
    assert body[..|ds|] == ds;
  }

  /**
   * What `stoi` returns for white space, a sign, a run of digits and a tail
   * that does not continue the digits: the signed value of the digits, or
   * `out_of_range` when it does not fit an `int`. The tail is ignored.
   */
  lemma StoiOfNumber(ws: string, sign: string, ds: string, tail: string)
    requires AllSpace(ws)
    requires sign == "" || sign == "+" || sign == "-"
    requires |ds| > 0 && AllDigits(ds)
    requires tail == [] || !IsDigit(tail[0])
    ensures Stoi(ws + sign + ds + tail) == SignedValue(sign, ds)
  {
    var t := sign + ds + tail;
    SpaceRunSkips(ws, t);
    assert ws + sign + ds + tail == ws + t;
    assert (ws + t)[|ws|..] == t;
    ConvertOfNumber(sign, ds, tail);
  }

  /**
   * `stoi` fails with `invalid_argument` when, after the white space and an
   * optional sign, no digit follows.
   */
  lemma StoiWithoutDigits(ws: string, sign: string, tail: string)
    requires AllSpace(ws)
    requires sign == "" || sign == "+" || sign == "-"
    requires tail == [] || !IsDigit(tail[0])
    requires sign == "" ==> tail == [] || (!IsSpace(tail[0]) && tail[0] != '+' && tail[0] != '-')
    ensures Stoi(ws + sign + tail) == InvalidArgument
  {
    var t := sign + tail;
    SpaceRunSkips(ws, t);
    assert (ws + t)[|ws|..] == t;
    assert ws + sign + tail == ws + t;
    if sign != "" {
      assert t[1..] == tail;
    }
  }

  /** `stoi` of a sign followed by the digits of `m`. */
  lemma StoiOfSignedDigits(sign: string, m: nat)
    requires sign == "" || sign == "-"
    ensures Stoi(sign + NatDigits(m)) == SignedValue(sign, NatDigits(m))
  {
    var ds := NatDigits(m);
    StoiOfNumber("", sign, ds, "");
    assert "" + sign + ds + "" == sign + ds;
  }

  /** Round trip: `stoi` reads back the decimal spelling of every `int`. */
  lemma StoiOfDecimal(n: int)
    requires IntMin <= n <= IntMax
    ensures Stoi(Decimal(n)) == Parsed(n)
  {
    var m: nat := if n < 0 then -n else n;
    var sign := if n < 0 then "-" else "";
    var ds := NatDigits(m);
    assert Decimal(n) == sign + ds;
    DecimalValueOfNatDigits(m);
    StoiOfSignedDigits(sign, m);
    assert SignedValue(sign, ds) == Parsed(n);
  }
}

=== FILE: Legacy.dfy ===
/**
 * The earlier version of the session: no `show`, `undo` only removes the last
 * command, and an `undo` typed on an empty queue is queued like any command.
 * It shares the data model of the current version.
 */
module Legacy {
  import opened Base
  import opened ScriptFile
  import opened Editor
  import opened SessionSpec
  import Session

  /** One line against the queue `q`. */
  function LegacyInterpret(q: seq<string>, line: string): Effect {
    if line == "done" then Effect(Finish, q, [])
    else if line == "quit" then Effect(Cancel, q, [])
    else if line == "undo" && q != [] then Effect(Continue, q[..|q| - 1], [WillNotPerform(|q| - 1)])
    else Effect(Continue, q + [line], [])
  }

  /** The state before the first line: the first prompt is already printed. */
  const LegacyInitial: State := State([], 1, [Prompt(1)])

  /** The state after `line`, with the loop's verdict: when the loop goes on, the counter advances and the next prompt is printed. */
  function LegacyStepState(s: State, line: string): (State, Control) {
    var e := LegacyInterpret(s.queue, line);
    var after := s.(queue := e.queue, console := s.console + e.output);
    if e.control == Continue then (after.(index := s.index + 1, console := after.console + [Prompt(s.index + 1)]), e.control)
    else (after, e.control)
  }

  /** The `while (getline(...))` loop: after every line that does not stop it, the next prompt. */
  function LegacyLoop(s: State, lines: seq<string>): LoopResult
    decreases |lines|
  {
    if lines == [] then LoopResult(EndOfInput, s, 0)
    else
      var (next, control) := LegacyStepState(s, lines[0]);
      match control
      case Continue => Shift(LegacyLoop(next, lines[1..]), 1)
      case Finish => LoopResult(DoneTyped, next, 1)
      case Cancel => LoopResult(QuitTyped, next, 1)
      case Crash => LoopResult(Crashed, next, 1)
  }

  /** `Quer::Run(mode, name)` of the earlier version; its scripts end in ".querscript". */
  function LegacyRunSpec(mode: RunMode, name: Option<string>, store: map<string, string>,
                         inputGood: bool, stdin: seq<string>): RunResult
  {
    var path := LegacyScriptPath(name);
    if mode == Record && Exists(store, path) then Abort(AlreadyExists, store)
    else if mode == Play && !Exists(store, path) then Abort(DoesNotExist, store)
    else if !inputGood then Abort(CouldNotRead, store)
    else
      var lines := if mode == Play then GetLines(store[path]) else stdin;
      AfterLoop(mode, path, store, LegacyLoop(LegacyInitial, lines))
  }

  // ---------------------------------------------------------------------------
  // What each line does

  /** Anything but `done`, `quit`, or `undo` on a non-empty queue is appended verbatim. */
  lemma LegacyAppends(q: seq<string>, line: string)
    requires line != "done" && line != "quit" && !(line == "undo" && q != [])
    ensures var e := LegacyInterpret(q, line);
            e.control == Continue && |e.queue| == |q| + 1 && e.queue[..|q|] == q && e.queue[|q|] == line
  {
  }

  /** `undo` on a non-empty queue removes exactly the last entry. */
  lemma LegacyUndoRemovesLast(q: seq<string>)
    requires q != []
    ensures var e := LegacyInterpret(q, "undo");
            e.control == Continue && e.queue + [q[|q| - 1]] == q
  {
  }

  /** `undo` on an empty queue is queued as a command of its own. */
  lemma LegacyUndoOnEmptyIsQueued()
    ensures LegacyInterpret([], "undo") == Effect(Continue, ["undo"], [])
  {
  }

  /**
   * The prompt counter goes up by exactly one after each line that does not
   * stop the loop, and shows in the prompt printed after that line.
   */
  lemma {:induction false} LegacyLoopCounts(s: State, lines: seq<string>)
    ensures var r := LegacyLoop(s, lines);
            var continued := if r.ending == EndOfInput then r.consumed else r.consumed - 1;
            && r.consumed <= |lines|
            && (r.ending == EndOfInput ==> r.consumed == |lines|)
            && (r.ending != EndOfInput ==> r.consumed >= 1)
            && r.state.index == s.index + continued
            && s.console <= r.state.console
    decreases |lines|
  {
    if lines != [] {
      var (next, control) := LegacyStepState(s, lines[0]);
      if control == Continue {
        LegacyLoopCounts(next, lines[1..]);
      }
    }
  }

  // ---------------------------------------------------------------------------
  // The session

  /** RECORD onto an existing script, PLAY of a missing one and an unreadable input return before any line is read. */
  lemma LegacyAbortsBeforeReading(mode: RunMode, name: Option<string>, store: map<string, string>,
                                  inputGood: bool, stdin: seq<string>)
    ensures var r := LegacyRunSpec(mode, name, store, inputGood, stdin);
            var found := Exists(store, LegacyScriptPath(name));
            && (mode == Record && found ==> r.outcome == Aborted(AlreadyExists))
            && (mode == Play && !found ==> r.outcome == Aborted(DoesNotExist))
            && (!inputGood && !(mode == Record && found) && !(mode == Play && !found) ==>
                  r.outcome == Aborted(CouldNotRead))
            && (r.outcome.Aborted? ==> r.linesRead == 0 && r.console == [] && r.store == store && r.executed == [])
  {
  }

  /** `quit` returns without writing a script or executing anything; `done` and the end of input flush. */
  lemma LegacyFlushEffects(mode: RunMode, name: Option<string>, store: map<string, string>,
                           inputGood: bool, stdin: seq<string>)
    ensures var r := LegacyRunSpec(mode, name, store, inputGood, stdin);
            && (!r.outcome.Flushed? ==> r.store == store && r.executed == [])
            && (r.outcome == Flushed && mode == Record ==>
                  r.store == WriteScript(store, LegacyScriptPath(name), Render(r.queue)) && r.executed == [])
            && (r.outcome == Flushed && mode != Record ==> r.store == store && r.executed == CStrs(r.queue))
  {
  }

  /** `quit` after any number of lines other than `done` and `quit` ends the loop right there. */
  lemma {:induction false} LegacyQuitStopsLoop(s: State, pre: seq<string>, post: seq<string>)
    requires forall i :: 0 <= i < |pre| ==> pre[i] != "done" && pre[i] != "quit"
    ensures var r := LegacyLoop(s, pre + ["quit"] + post);
            r.ending == QuitTyped && r.consumed == |pre| + 1
    decreases |pre|
  {
    var lines := pre + ["quit"] + post;
    if pre == [] {
      assert lines[0] == "quit";
    } else {
      assert lines[0] == pre[0];
      assert lines[1..] == pre[1..] + ["quit"] + post;
      LegacyQuitStopsLoop(LegacyStepState(s, pre[0]).0, pre[1..], post);
    }
  }

  /** `quit` typed at any point of a RUN or RECORD session returns without writing a script or executing anything. */
  lemma LegacyQuitDiscards(mode: RunMode, name: Option<string>, store: map<string, string>,
                           pre: seq<string>, post: seq<string>)
    requires mode != Play
    requires !(mode == Record && Exists(store, LegacyScriptPath(name)))
    requires forall i :: 0 <= i < |pre| ==> pre[i] != "done" && pre[i] != "quit"
    ensures var r := LegacyRunSpec(mode, name, store, true, pre + ["quit"] + post);
            r.outcome == Cancelled && r.store == store && r.executed == [] && r.linesRead == |pre| + 1
  {
    LegacyQuitStopsLoop(LegacyInitial, pre, post);
  }

  /**
   * `done` after any number of lines other than `done` and `quit` ends the
   * loop right there, in the state the end of the input would have left.
   */
  lemma {:induction false} LegacyDoneStopsLoop(s: State, pre: seq<string>, post: seq<string>)
    requires forall i :: 0 <= i < |pre| ==> pre[i] != "done" && pre[i] != "quit"
    ensures var r := LegacyLoop(s, pre + ["done"] + post);
            r.ending == DoneTyped && r.consumed == |pre| + 1 && r.state == LegacyLoop(s, pre).state
    decreases |pre|
  {
    var lines := pre + ["done"] + post;
    if pre == [] {
      assert lines[0] == "done";
    } else {
      assert lines[0] == pre[0];
      assert lines[1..] == pre[1..] + ["done"] + post;
      LegacyDoneStopsLoop(LegacyStepState(s, pre[0]).0, pre[1..], post);
    }
  }

  /**
   * `done` typed at any point of a RUN or RECORD session flushes the queue the
   * lines before it built: RECORD writes it, RUN executes it, and nothing
   * after `done` is read.
   */
  lemma LegacyDoneFlushes(mode: RunMode, name: Option<string>, store: map<string, string>,
                          pre: seq<string>, post: seq<string>)
    requires mode != Play
    requires !(mode == Record && Exists(store, LegacyScriptPath(name)))
    requires forall i :: 0 <= i < |pre| ==> pre[i] != "done" && pre[i] != "quit"
    ensures var r := LegacyRunSpec(mode, name, store, true, pre + ["done"] + post);
            var q := LegacyLoop(LegacyInitial, pre).state.queue;
            && r.outcome == Flushed && r.linesRead == |pre| + 1 && r.queue == q
            && (mode == Record ==> r.store == WriteScript(store, LegacyScriptPath(name), Render(q)) && r.executed == [])
            && (mode == Run ==> r.store == store && r.executed == CStrs(q))
  {
    LegacyDoneStopsLoop(LegacyInitial, pre, post);
  }

  /** The end of input stops the loop like `done`: nothing but `done`, `quit` and the input's end can. */
  lemma {:induction false} LegacyReadsToEnd(s: State, lines: seq<string>)
    requires forall i :: 0 <= i < |lines| ==> lines[i] != "done" && lines[i] != "quit"
    ensures LegacyLoop(s, lines).ending == EndOfInput
    decreases |lines|
  {
    if lines != [] {
      LegacyReadsToEnd(LegacyStepState(s, lines[0]).0, lines[1..]);
    }
  }

  /**
   * What a queue of the earlier version can hold: never `done` or `quit`, and
   * `undo` only as its first entry (it is queued only onto an empty queue).
   */
  predicate LegacyShape(q: seq<string>) {
    && (forall i :: 0 <= i < |q| ==> q[i] != "done" && q[i] != "quit")
    && (forall i :: 0 < i < |q| ==> q[i] != "undo")
  }

  lemma LegacyInterpretKeepsShape(q: seq<string>, line: string)
    requires LegacyShape(q)
    ensures LegacyShape(LegacyInterpret(q, line).queue)
  {
  }

  lemma {:induction false} LegacyLoopKeepsShape(s: State, lines: seq<string>)
    requires LegacyShape(s.queue)
    ensures LegacyShape(LegacyLoop(s, lines).state.queue)
    decreases |lines|
  {
    if lines != [] {
      var e := LegacyInterpret(s.queue, lines[0]);
      LegacyInterpretKeepsShape(s.queue, lines[0]);
      if e.control == Continue {
        LegacyLoopKeepsShape(LegacyStepState(s, lines[0]).0, lines[1..]);
      }
    }
  }

  /** Queued commands are input lines, so a character no input line holds is in no queued command. */
  lemma {:induction false} LegacyLoopAvoids(s: State, lines: seq<string>, ch: char)
    requires Avoids(s.queue, ch) && Avoids(lines, ch)
    ensures Avoids(LegacyLoop(s, lines).state.queue, ch)
    decreases |lines|
  {
    if lines != [] {
      var e := LegacyInterpret(s.queue, lines[0]);
      assert Avoids(e.queue, ch) by {
        if lines[0] == "undo" && s.queue != [] {
          assert forall i :: 0 <= i < |e.queue| ==> e.queue[i] == s.queue[i];
        }
      }
      if e.control == Continue {
        LegacyLoopAvoids(LegacyStepState(s, lines[0]).0, lines[1..], ch);
      }
    }
  }

  /** Playing back a queue of that shape from an empty queue queues every line again, in order. */
  lemma {:induction false} LegacyReplaysShape(s: State, cmds: seq<string>)
    requires forall i :: 0 <= i < |cmds| ==> cmds[i] != "done" && cmds[i] != "quit"
    requires forall i :: 0 <= i < |cmds| && cmds[i] == "undo" ==> i == 0 && s.queue == []
    ensures var r := LegacyLoop(s, cmds);
            r.ending == EndOfInput && r.state.queue == s.queue + cmds
    decreases |cmds|
  {
    if cmds == [] {
      assert s.queue + cmds == s.queue;
    } else {
      var e := LegacyInterpret(s.queue, cmds[0]);
      assert e.queue == s.queue + [cmds[0]];
      LegacyReplaysShape(LegacyStepState(s, cmds[0]).0, cmds[1..]);
      assert s.queue + cmds == s.queue + [cmds[0]] + cmds[1..];
    }
  }

  /** A queue of that shape, played back from the start, is queued again whole. */
  lemma LegacyShapeReplays(q: seq<string>)
    requires LegacyShape(q)
    ensures var r := LegacyLoop(LegacyInitial, q);
            r.ending == EndOfInput && r.state.queue == q
  {
    LegacyReplaysShape(LegacyInitial, q);
    assert LegacyInitial.queue + q == q;
  }

  /**
   * Round trip of the earlier version: playing back a recorded script executes
   * exactly the recorded queue, even when it starts with a queued `undo`, as
   * long as no typed line holds a NUL.
   */
  lemma LegacyPlayReplaysRecording(name: string, store: map<string, string>, stdin: seq<string>, later: seq<string>)
    requires AllLines(stdin) && NulFree(stdin)
    requires LegacyRunSpec(Record, Some(name), store, true, stdin).outcome == Flushed
    ensures var rec := LegacyRunSpec(Record, Some(name), store, true, stdin);
            var play := LegacyRunSpec(Play, Some(name), rec.store, true, later);
            play.outcome == Flushed && play.executed == rec.queue && play.store == rec.store
  {
    var rec := LegacyRunSpec(Record, Some(name), store, true, stdin);
    var path := LegacyScriptPath(Some(name));
    var q := LegacyLoop(LegacyInitial, stdin).state.queue;
    assert rec.queue == q && rec.store == store[path := Render(q)];
    LegacyLoopKeepsShape(LegacyInitial, stdin);
    LegacyLoopAvoids(LegacyInitial, stdin, '\n');
    LegacyLoopAvoids(LegacyInitial, stdin, '\0');
    GetLinesOfRender(q);
    assert GetLines(rec.store[path]) == q;
    LegacyShapeReplays(q);
    var r := LegacyLoop(LegacyInitial, q);
    assert r.ending == EndOfInput && r.state.queue == q;
  }

  // ---------------------------------------------------------------------------
  // The session as the program runs it

  class LegacySession {
    const mode: RunMode
    var queue: seq<string>
    var index: nat
    var console: seq<Message>

    function Snapshot(): State
      reads this
    {
      State(queue, index, console)
    }

    /** The session after the checks: an empty queue and the first prompt printed. */
    constructor (mode: RunMode)
      ensures this.mode == mode && Snapshot() == LegacyInitial
    {
      this.mode := mode;
      queue := [];
      index := 1;
      console := [Prompt(1)];
    }

    /** One line; when the loop goes on, the next prompt with the counter advanced by one. */
    method Step(line: string) returns (c: Control)
      modifies this
      ensures (Snapshot(), c) == LegacyStepState(old(Snapshot()), line)
      ensures var e := LegacyInterpret(old(queue), line);
              c == e.control && queue == e.queue
      ensures c == Continue ==>
                index == old(index) + 1 &&
                console == old(console) + LegacyInterpret(old(queue), line).output + [Prompt(index)]
      ensures c != Continue ==> index == old(index) && console == old(console)
    {
      if line == "done" || line == "quit" {
        assert console + [] == console;
        return if line == "done" then Finish else Cancel;
      } else if line == "undo" && queue != [] {
        queue := queue[..|queue| - 1];
        console := console + [WillNotPerform(|queue|)];
      } else {
        queue := queue + [line];
      }
      index := index + 1;
      console := console + [Prompt(index)];
      c := Continue;
    }
  }

  /** The `while (getline(...))` loop: interpret lines until `done`, `quit` or the end of input. */
  method LegacyReadLoop(session: LegacySession, lines: seq<string>) returns (ending: Ending, consumed: nat)
    modifies session
    ensures LegacyLoop(old(session.Snapshot()), lines) == LoopResult(ending, session.Snapshot(), consumed)
  {
    ghost var start := session.Snapshot();
    consumed := 0;
    ending := EndOfInput;
    var stopped := false;
    while !stopped && consumed < |lines|
      invariant 0 <= consumed <= |lines|
      invariant !stopped ==> ending == EndOfInput
      invariant !stopped ==> LegacyLoop(start, lines) == Shift(LegacyLoop(session.Snapshot(), lines[consumed..]), consumed)
      invariant stopped ==> LegacyLoop(start, lines) == LoopResult(ending, session.Snapshot(), consumed)
      decreases |lines| - consumed
    {
      assert lines[consumed..][0] == lines[consumed] && lines[consumed..][1..] == lines[consumed + 1..];
      var c := session.Step(lines[consumed]);
      consumed := consumed + 1;
      match c
      case Continue =>
      case Finish => ending, stopped := DoneTyped, true;
      case Cancel => ending, stopped := QuitTyped, true;
      case Crash => ending, stopped := Crashed, true;
    }
    if !stopped {
      assert lines[consumed..] == [];
    }
  }

  /** `Quer::Run` of the earlier version. */
  method LegacyRun(mode: RunMode, name: Option<string>, store: map<string, string>,
                   inputGood: bool, stdin: seq<string>) returns (r: RunResult)
    ensures r == LegacyRunSpec(mode, name, store, inputGood, stdin)
  {
    var path := LegacyScriptPath(name);
    var found := Exists(store, path);
    if mode == Record && found {
      return Abort(AlreadyExists, store);
    } else if mode == Play && !found {
      return Abort(DoesNotExist, store);
    }
    if !inputGood {
      return Abort(CouldNotRead, store);
    }
    var lines := if mode == Play then GetLines(store[path]) else stdin;
    var session := new LegacySession(mode);
    var ending, consumed := LegacyReadLoop(session, lines);
    var q := session.queue;
    match ending
    case QuitTyped =>
      r := RunResult(Cancelled, q, store, [], session.console, consumed);
    case Crashed =>
      r := RunResult(Terminated, q, store, [], session.console, consumed);
    case _ =>
      var written, executed := Session.FlushQueue(mode, q, path, store);
      r := RunResult(Flushed, q, written, executed, session.console, consumed);
  }
}

=== FILE: ScriptFile.dfy ===
/**
 * Script files: where a script lives, the text a RECORD session writes to it
 * and the lines a PLAY session reads back from it.
 */
module ScriptFile {
  import opened Base

  const ScriptDir := "C:/querscripts/"
  /** Extension of the current version's scripts. */
  const ScriptExt := ".bat"
  /** Extension of the earlier version's scripts. */
  const LegacyScriptExt := ".querscript"

  /** `std::format("C:/querscripts/{}<ext>", name)`, or the empty path when there is no name. */
  function FormatPath(name: Option<string>, ext: string): (p: string)
    ensures name.None? ==> p == ""
    ensures name.Some? ==> |p| == |ScriptDir| + |name.value| + |ext|
  {
    match name
    case None => ""
    case Some(n) => ScriptDir + n + ext
  }

  /** The current version's script path; the name can be read back from it. */
  function ScriptPath(name: Option<string>): (p: string)
    ensures name.None? <==> p == ""
    ensures name.Some? ==> NameOfPath(p, ScriptExt) == name
  {
    if name.Some? then NameOfFormatPath(name.value, ScriptExt); FormatPath(name, ScriptExt)
    else FormatPath(name, ScriptExt)
  }

  /** The earlier version's script path; the name can be read back from it. */
  function LegacyScriptPath(name: Option<string>): (p: string)
    ensures name.None? <==> p == ""
    ensures name.Some? ==> NameOfPath(p, LegacyScriptExt) == name
  {
    if name.Some? then NameOfFormatPath(name.value, LegacyScriptExt); FormatPath(name, LegacyScriptExt)
    else FormatPath(name, LegacyScriptExt)
  }

  /** The script name a path stands for, if it has the script directory and extension around it. */
  function NameOfPath(p: string, ext: string): (name: Option<string>)
    ensures name.Some? ==> |p| == |ScriptDir| + |name.value| + |ext|
  {
    if |p| >= |ScriptDir| + |ext| && p[..|ScriptDir|] == ScriptDir && p[|p| - |ext|..] == ext
    then Some(p[|ScriptDir|..|p| - |ext|])
    else None
  }

  /** Round trip: the name can be read back from its path. */
  lemma NameOfFormatPath(name: string, ext: string)
    ensures NameOfPath(FormatPath(Some(name), ext), ext) == Some(name)
  {
    var p := FormatPath(Some(name), ext);
    assert p[..|ScriptDir|] == ScriptDir;
    assert p[|p| - |ext|..] == ext;
    assert p[|ScriptDir|..|p| - |ext|] == name;
  }

  /** Different names never share a script file. */
  lemma FormatPathInjective(a: string, b: string, ext: string)
    requires FormatPath(Some(a), ext) == FormatPath(Some(b), ext)
    ensures a == b
  {
    NameOfFormatPath(a, ext);
    NameOfFormatPath(b, ext);
  }

  /** A line as `std::getline` delivers it: it never holds the delimiter. */
  predicate IsLine(s: string) {
    '\n' !in s
  }

  predicate AllLines(ss: seq<string>) {
    Avoids(ss, '\n')
  }

  /** Strings that C functions see whole: none holds a NUL. */
  predicate NulFree(ss: seq<string>) {
    Avoids(ss, '\0')
  }

  /**
   * What a C function sees of `s` through `c_str()`: the characters before
   * the first NUL. Both `operator<<` on a `const char*` and `system` stop there.
   */
  function CStr(s: string): (c: string)
    ensures c <= s && '\0' !in c
    ensures |c| < |s| ==> s[|c|] == '\0'
    ensures '\0' !in s ==> c == s
    decreases |s|
  {
    if s == [] || s[0] == '\0' then "" else [s[0]] + CStr(s[1..])
  }

  /** `CStr` of every command, in order; commands without a NUL are unchanged. */
  function CStrs(q: seq<string>): (r: seq<string>)
    ensures |r| == |q| && NulFree(r)
    ensures forall i :: 0 <= i < |q| ==> r[i] == CStr(q[i])
    ensures NulFree(q) ==> r == q
    ensures AllLines(q) ==> AllLines(r)
  {
    var r := seq(|q|, i requires 0 <= i < |q| => CStr(q[i]));
    assert forall i :: 0 <= i < |q| ==> r[i] <= q[i];
    r
  }

  /** Cutting one more command appends its cut. */
  lemma CStrsSnoc(q: seq<string>, c: string)
    ensures CStrs(q + [c]) == CStrs(q) + [CStr(c)]
  {
    assert CStrs(q + [c])[|q|] == CStr(c);
  }

  /** The text the RECORD flush writes: every command, up to any NUL, followed by `'\n'`, in queue order. */
  function Render(commands: seq<string>): string {
    if commands == [] then "" else CStr(commands[0]) + "\n" + Render(commands[1..])
  }

  /** Writing one more command appends exactly that command's line. */
  lemma {:induction false} RenderSnoc(commands: seq<string>, c: string)
    ensures Render(commands + [c]) == Render(commands) + CStr(c) + "\n"
  {
    if commands != [] {
      assert (commands + [c])[1..] == commands[1..] + [c];
      RenderSnoc(commands[1..], c);
    } else {
      assert commands + [c] == [c];
    }
  }

  /** Index of the first `'\n'` in `t`, or `|t|` when there is none. */
  function FirstNewline(t: string): (k: nat)
    ensures k <= |t| && IsLine(t[..k])
    ensures k < |t| ==> t[k] == '\n'
  {
    if t == [] || t[0] == '\n' then 0
    else
      var k := 1 + FirstNewline(t[1..]);
      assert t[..k] == [t[0]] + t[1..][..k - 1];
      k
  }

  /**
   * The lines repeated `std::getline` calls read from `t`: each ends at a
   * `'\n'` or at the end of the text; a final `'\n'` starts no further line.
   */
  function GetLines(t: string): (lines: seq<string>)
    ensures AllLines(lines)
    decreases |t|
  {
    if t == [] then []
    else
      var k := FirstNewline(t);
      [t[..k]] + if k == |t| then [] else GetLines(t[k + 1..])
  }

  lemma FirstNewlineAfterLine(c: string, rest: string)
    requires IsLine(c)
    ensures FirstNewline(c + "\n" + rest) == |c|
  {
    var t := c + "\n" + rest;
    assert t[|c|] == '\n';
    assert t[..|c|] == c;
  }

  /**
   * Round trip: reading back what RECORD wrote gives the queue again, each
   * command cut at its first NUL, as long as no command holds a `'\n'` (none
   * does: commands come from `getline`).
   */
  lemma {:induction false} GetLinesOfRender(commands: seq<string>)
    requires AllLines(commands)
    ensures GetLines(Render(commands)) == CStrs(commands)
  {
    if commands != [] {
      var c := CStr(commands[0]);
      var rest := Render(commands[1..]);
      var t := c + "\n" + rest;
      assert IsLine(c) by {
        assert '\n' !in commands[0];
        assert forall j :: 0 <= j < |c| ==> c[j] == commands[0][j];
      }
      FirstNewlineAfterLine(c, rest);
      assert t[..|c|] == c;
      assert t[|c| + 1..] == rest;
      GetLinesOfRender(commands[1..]);
      assert CStrs(commands) == [c] + CStrs(commands[1..]);
      assert GetLines(t) == [c] + CStrs(commands[1..]);
    }
  }
}

=== FILE: Session.dfy ===
/**
 * The current version's session as the program runs it: an object whose
 * queue, counter and printed output change line by line, and the `Run`
 * procedure that checks the script, drives the loop and flushes the queue.
 */
module Session {
  import opened Base
  import opened IntParse
  import opened ScriptFile
  import opened Editor
  import opened SessionSpec

  class QueueSession {
    const mode: RunMode
    /** `queuedCommands`. */
    var queue: seq<string>
    /** The number the next prompt or echo shows. */
    var index: nat
    /** What the session printed, in order. */
    var console: seq<Message>

    function Snapshot(): State
      reads this
    {
      State(queue, index, console)
    }

    constructor (mode: RunMode)
      ensures this.mode == mode && Snapshot() == Initial
    {
      this.mode := mode;
      queue := [];
      index := 1;
      console := [];
    }

    /** Prints the prompt (RUN, RECORD) or echoes the line read (PLAY), then advances the counter. */
    method Announce(line: string)
      modifies this
      ensures Snapshot() == SessionSpec.Announce(mode, old(Snapshot()), line)
    {
      if mode == Play {
        console := console + [Echo(index, line)];
      } else {
        console := console + [Prompt(index)];
      }
      index := index + 1;
    }

    /**
     * The last pass of the loop in RUN and RECORD: the prompt is printed, the
     * failed `getline` leaves the line empty, and that empty line is
     * interpreted before the loop ends. PLAY stops without a last pass.
     */
    method LastPass()
      modifies this
      ensures Snapshot() == AtEndOfInput(mode, old(Snapshot()))
    {
      if mode != Play {
        console := console + [Prompt(index)];
        index := index + 1;
        var c := Step("");
      }
    }

    /** `show`: the header, then every entry numbered from 1 in queue order. */
    method Show()
      modifies this`console
      ensures console == old(console) + [ListingHeader] + Listing(queue, 1)
      ensures |console| == |old(console)| + 1 + |queue|
    {
      console := console + [ListingHeader];
      var pos := 0;
      while pos < |queue|
        invariant 0 <= pos <= |queue|
        invariant console == old(console) + [ListingHeader] + Listing(queue[..pos], 1)
      {
        ListingSnoc(queue[..pos], queue[pos], 1);
        assert queue[..pos + 1] == queue[..pos] + [queue[pos]];
        console := console + [ListingEntry(pos + 1, queue[pos])];
        pos := pos + 1;
      }
      assert queue[..pos] == queue;
      ListingNumbers(queue, 1);
    }

    /** `undo` followed by at least one more character, on a non-empty queue. */
    method UndoWithArgument(arg: string) returns (c: Control)
      requires queue != []
      modifies this`queue, this`console
      ensures var e := UndoWith(old(queue), arg);
              c == e.control && queue == e.queue && console == old(console) + e.output
    {
      c := Continue;
      var parsed := Stoi(arg);
      match parsed
      case OutOfRange =>
        c := Crash;
      case InvalidArgument =>
        if arg == "all" {
          queue := [];
          console := console + [AllErased];
        } else {
          console := console + [FormatError];
        }
      case Parsed(n) =>
        var removeAt := PredInt32(n);
        if ToSize(removeAt) >= |queue| {
          console := console + [RangeError(|queue|)];
        } else {
          var k := ToSize(removeAt);
          console := console + [Removed(k + 1, queue[k])];
          queue := queue[..k] + queue[k + 1..];
        }
    }

    /** Interprets one line: a directive, or a command appended to the queue. */
    method Step(line: string) returns (c: Control)
      modifies this
      ensures var e := Interpret(old(queue), line);
              c == e.control && queue == e.queue && console == old(console) + e.output
      ensures index == old(index)
    {
      c := Continue;
      if line == "done" {
        c := Finish;
      } else if line == "quit" {
        c := Cancel;
      } else if line == "show" {
        Show();
      } else if StartsWithUndo(line) {
        if queue == [] {
          console := console + [EmptyQueueWarning];
        } else if |line| == 4 {
          console := console + [WillNotPerform(|queue| + 1)];
          queue := queue[..|queue| - 1];
        } else {
          c := UndoWithArgument(line[5..]);
        }
      } else {
        queue := queue + [line];
      }
    }
  }

  /**
   * The flush after the loop, the same in both versions: in RECORD the script
   * text, every command up to its first NUL followed by `'\n'`, goes to
   * `path`; in RUN and PLAY there is one shell call per command, in queue
   * order, which sees the command up to its first NUL.
   */
  method FlushQueue(mode: RunMode, queue: seq<string>, path: string, store: map<string, string>)
    returns (written: map<string, string>, executed: seq<string>)
    ensures mode == Record ==> written == WriteScript(store, path, Render(queue)) && executed == []
    ensures mode != Record ==> written == store && executed == CStrs(queue)
  {
    written, executed := store, [];
    if mode == Record {
      var text := "";
      for i := 0 to |queue|
        invariant text == Render(queue[..i])
      {
        RenderSnoc(queue[..i], queue[i]);
        assert queue[..i + 1] == queue[..i] + [queue[i]];
        text := text + CStr(queue[i]) + "\n";
      }
      assert queue[..|queue|] == queue;
      written := WriteScript(store, path, text);
    } else {
      for i := 0 to |queue|
        invariant executed == CStrs(queue[..i])
      {
        assert queue[..i + 1] == queue[..i] + [queue[i]];
        CStrsSnoc(queue[..i], queue[i]);
        executed := executed + [CStr(queue[i])];
      }
      assert queue[..|queue|] == queue;
    }
  }

  /**
   * The `while (!abort)` loop: announce and interpret lines until `done`,
   * `quit`, a crash or the end of input.
   */
  method ReadLoop(session: QueueSession, lines: seq<string>) returns (ending: Ending, consumed: nat)
    modifies session
    ensures Loop(session.mode, old(session.Snapshot()), lines) == LoopResult(ending, session.Snapshot(), consumed)
  {
    ghost var mode := session.mode;
    ghost var start := session.Snapshot();
    consumed := 0;
    ending := EndOfInput;
    var stopped := false;
    while !stopped && consumed < |lines|
      invariant 0 <= consumed <= |lines|
      invariant !stopped ==> ending == EndOfInput
      invariant !stopped ==> Loop(mode, start, lines) == Shift(Loop(mode, session.Snapshot(), lines[consumed..]), consumed)
      invariant stopped ==> Loop(mode, start, lines) == LoopResult(ending, session.Snapshot(), consumed)
      decreases |lines| - consumed
    {
      assert lines[consumed..][0] == lines[consumed] && lines[consumed..][1..] == lines[consumed + 1..];
      session.Announce(lines[consumed]);
      var c := session.Step(lines[consumed]);
      consumed := consumed + 1;
      match c
      case Continue =>
      case Finish => ending, stopped := DoneTyped, true;
      case Cancel => ending, stopped := QuitTyped, true;
      case Crash => ending, stopped := Crashed, true;
    }
    if !stopped {
      assert lines[consumed..] == [];
      session.LastPass();
    }
  }

  /**
   * `Quer::Run`: refuse a RECORD onto an existing script, a PLAY of a missing
   * one and an unreadable input; then read and interpret lines until `done`,
   * `quit` or the end of input, and flush unless the session was cancelled.
   */
  method Run(mode: RunMode, name: Option<string>, store: map<string, string>,
             inputGood: bool, stdin: seq<string>) returns (r: RunResult)
    ensures r == RunSpec(mode, name, store, inputGood, stdin)
  {
    var path := ScriptPath(name);
    var found := Exists(store, path);
    if mode == Record && found {
      return Abort(AlreadyExists, store);
    } else if mode == Play && !found {
      return Abort(DoesNotExist, store);
    }
    if !inputGood {
      return Abort(CouldNotRead, store);
    }
    var lines := if mode == Play then GetLines(store[path]) else stdin;
    var session := new QueueSession(mode);
    var ending, consumed := ReadLoop(session, lines);
    var q := session.queue;
    match ending
    case QuitTyped =>
      r := RunResult(Cancelled, q, store, [], session.console, consumed);
    case Crashed =>
      r := RunResult(Terminated, q, store, [], session.console, consumed);
    case _ =>
      var written, executed := FlushQueue(mode, q, path, store);
      r := RunResult(Flushed, q, written, executed, session.console, consumed);
  }
}

=== FILE: SessionSpec.dfy ===
/**
 * The current version's session as a function of its inputs: the checks
 * before any input is read, the line loop, and the flush. The lines of a RUN
 * or RECORD session are given as a finite sequence; a PLAY session reads the
 * lines of its script from the store of script files.
 */
module SessionSpec {
  import opened Base
  import opened IntParse
  import opened ScriptFile
  import opened Editor

  /** The session's variables: the queue, the 1-based line counter and everything printed so far. */
  datatype State = State(queue: seq<string>, index: nat, console: seq<Message>)

  const Initial: State := State([], 1, [])

  /** Why the loop stopped. */
  datatype Ending = EndOfInput | DoneTyped | QuitTyped | Crashed

  datatype LoopResult = LoopResult(ending: Ending, state: State, consumed: nat)

  datatype AbortReason = AlreadyExists | DoesNotExist | CouldNotRead

  datatype Outcome =
    | Aborted(reason: AbortReason)  // before any line is read
    | Cancelled                     // `quit`
    | Terminated                    // `stoi` threw `out_of_range`
    | Flushed                       // `done` or end of input, queue written or executed

  /**
   * Everything a session leaves behind: how it ended, its last queue, the
   * script files, the commands handed to the shell in order, what it printed
   * and how many lines it consumed.
   */
  datatype RunResult = RunResult(
    outcome: Outcome,
    queue: seq<string>,
    store: map<string, string>,
    executed: seq<string>,
    console: seq<Message>,
    linesRead: nat)

  /** `std::filesystem::exists`: the empty path never exists. */
  predicate Exists(store: map<string, string>, path: string) {
    path != "" && path in store
  }

  /** An `ofstream` on `path` receiving `text`; one on the empty path fails to open and writes nothing. */
  function WriteScript(store: map<string, string>, path: string, text: string): (s: map<string, string>)
    ensures path != "" ==> path in s && s[path] == text
    ensures forall p :: p != path ==> (p in s <==> p in store)
    ensures forall p :: p != path && p in store ==> s[p] == store[p]
    ensures path == "" ==> s == store
  {
    if path == "" then store else store[path := text]
  }

  /** Before a line is interpreted: the prompt in RUN and RECORD, the echo in PLAY; the counter advances. */
  function Announce(mode: RunMode, s: State, line: string): State {
    var m := if mode == Play then Echo(s.index, line) else Prompt(s.index);
    s.(index := s.index + 1, console := s.console + [m])
  }

  /**
   * The end of input. PLAY stops silently. RUN and RECORD have already printed
   * the prompt when `getline` fails; the failed `getline` has emptied the line,
   * and the rest of the loop body still runs once on that empty line.
   */
  function AtEndOfInput(mode: RunMode, s: State): State {
    if mode == Play then s
    else
      var p := s.(index := s.index + 1, console := s.console + [Prompt(s.index)]);
      var e := Interpret(p.queue, "");
      p.(queue := e.queue, console := p.console + e.output)
  }

  /** The state after `line` was announced and interpreted, with the loop's verdict. */
  function StepState(mode: RunMode, s: State, line: string): (State, Control) {
    var a := Announce(mode, s, line);
    var e := Interpret(a.queue, line);
    (a.(queue := e.queue, console := a.console + e.output), e.control)
  }

  function Shift(r: LoopResult, n: nat): LoopResult {
    r.(consumed := r.consumed + n)
  }

  /** The `while (!abort)` loop over the remaining lines. */
  function Loop(mode: RunMode, s: State, lines: seq<string>): LoopResult
    decreases |lines|
  {
    if lines == [] then LoopResult(EndOfInput, AtEndOfInput(mode, s), 0)
    else
      var (next, control) := StepState(mode, s, lines[0]);
      match control
      case Continue => Shift(Loop(mode, next, lines[1..]), 1)
      case Finish => LoopResult(DoneTyped, next, 1)
      case Cancel => LoopResult(QuitTyped, next, 1)
      case Crash => LoopResult(Crashed, next, 1)
  }

  function Abort(reason: AbortReason, store: map<string, string>): RunResult {
    RunResult(Aborted(reason), [], store, [], [], 0)
  }

  /**
   * The flush after `done` or the end of input: RECORD writes the script, RUN
   * and PLAY hand each command to the shell, which sees it up to its first NUL.
   */
  function AfterLoop(mode: RunMode, path: string, store: map<string, string>, r: LoopResult): RunResult {
    var q := r.state.queue;
    match r.ending
    case QuitTyped => RunResult(Cancelled, q, store, [], r.state.console, r.consumed)
    case Crashed => RunResult(Terminated, q, store, [], r.state.console, r.consumed)
    case _ =>
      if mode == Record then RunResult(Flushed, q, WriteScript(store, path, Render(q)), [], r.state.console, r.consumed)
      else RunResult(Flushed, q, store, CStrs(q), r.state.console, r.consumed)
  }

  /** `Quer::Run(mode, name)`. */
  function RunSpec(mode: RunMode, name: Option<string>, store: map<string, string>,
                   inputGood: bool, stdin: seq<string>): RunResult
  {
    var path := ScriptPath(name);
    if mode == Record && Exists(store, path) then Abort(AlreadyExists, store)
    else if mode == Play && !Exists(store, path) then Abort(DoesNotExist, store)
    else if !inputGood then Abort(CouldNotRead, store)
    else
      var lines := if mode == Play then GetLines(store[path]) else stdin;
      AfterLoop(mode, path, store, Loop(mode, Initial, lines))
  }

  // ---------------------------------------------------------------------------
  // The loop

  /** A line after which the loop always goes on, whatever the queue. */
  predicate Harmless(line: string) {
    match Classify(line)
    case Done => false
    case Quit => false
    case UndoArg(arg) => !Stoi(arg).OutOfRange?
    case _ => true
  }

  lemma HarmlessContinues(q: seq<string>, line: string)
    requires Harmless(line)
    ensures Interpret(q, line).control == Continue
  {
  }

  /**
   * The counter goes up by one for every line read, and once more for the
   * prompt printed before the end of input in RUN and RECORD. Output is only
   * ever appended.
   */
  lemma {:induction false} LoopCounts(mode: RunMode, s: State, lines: seq<string>)
    ensures var r := Loop(mode, s, lines);
            && r.consumed <= |lines|
            && (r.ending == EndOfInput ==> r.consumed == |lines|)
            && r.state.index == s.index + r.consumed + (if r.ending == EndOfInput && mode != Play then 1 else 0)
            && s.console <= r.state.console
    decreases |lines|
  {
    if lines != [] {
      var (next, control) := StepState(mode, s, lines[0]);
      if control == Continue {
        LoopCounts(mode, next, lines[1..]);
      }
    }
  }

  /** At the end of input RUN and RECORD queue one empty command; PLAY queues nothing. */
  lemma EndOfInputQueuesEmptyLine(mode: RunMode, s: State)
    ensures AtEndOfInput(mode, s).queue == s.queue + (if mode == Play then [] else [""])
    ensures AtEndOfInput(mode, s).console == s.console + (if mode == Play then [] else [Prompt(s.index)])
  {
    if mode != Play {
      assert Classify("") == Enqueue;
    }
  }

  /** No directive ever enters the queue. */
  lemma {:induction false} LoopKeepsPlain(mode: RunMode, s: State, lines: seq<string>)
    requires AllPlain(s.queue)
    ensures AllPlain(Loop(mode, s, lines).state.queue)
    decreases |lines|
  {
    if lines == [] {
      EndOfInputQueuesEmptyLine(mode, s);
    } else {
      var (next, control) := StepState(mode, s, lines[0]);
      InterpretKeepsPlain(s.queue, lines[0]);
      if control == Continue {
        LoopKeepsPlain(mode, next, lines[1..]);
      }
    }
  }

  /** Queued commands are input lines, so a character no input line holds is in no queued command. */
  lemma {:induction false} LoopAvoids(mode: RunMode, s: State, lines: seq<string>, ch: char)
    requires Avoids(s.queue, ch) && Avoids(lines, ch)
    ensures Avoids(Loop(mode, s, lines).state.queue, ch)
    decreases |lines|
  {
    if lines == [] {
      EndOfInputQueuesEmptyLine(mode, s);
    } else {
      var (next, control) := StepState(mode, s, lines[0]);
      InterpretAvoids(s.queue, lines[0], ch);
      if control == Continue {
        LoopAvoids(mode, next, lines[1..], ch);
      }
    }
  }

  /**
   * Plain lines up to the end of input are all queued, in order; RUN and
   * RECORD queue the empty line of the last pass after them.
   */
  lemma {:induction false} PlainLinesToEnd(mode: RunMode, s: State, cmds: seq<string>)
    requires AllPlain(cmds)
    ensures var r := Loop(mode, s, cmds);
            r.ending == EndOfInput && r.state.queue == s.queue + cmds + (if mode == Play then [] else [""])
    decreases |cmds|
  {
    if cmds == [] {
      EndOfInputQueuesEmptyLine(mode, s);
      assert s.queue + cmds == s.queue;
    } else {
      var (next, control) := StepState(mode, s, cmds[0]);
      assert IsPlain(cmds[0]);
      assert next.queue == s.queue + [cmds[0]];
      PlainLinesToEnd(mode, next, cmds[1..]);
      assert s.queue + cmds == s.queue + [cmds[0]] + cmds[1..];
    }
  }

  /** Plain lines followed by `done` are all queued, in order, and nothing after `done` is read. */
  lemma {:induction false} PlainLinesThenDone(mode: RunMode, s: State, cmds: seq<string>, rest: seq<string>)
    requires AllPlain(cmds)
    ensures var r := Loop(mode, s, cmds + ["done"] + rest);
            r.ending == DoneTyped && r.state.queue == s.queue + cmds && r.consumed == |cmds| + 1
    decreases |cmds|
  {
    var lines := cmds + ["done"] + rest;
    if cmds == [] {
      assert lines[0] == "done";
      assert s.queue + cmds == s.queue;
    } else {
      var (next, control) := StepState(mode, s, cmds[0]);
      assert lines[0] == cmds[0] && IsPlain(cmds[0]);
      assert lines[1..] == cmds[1..] + ["done"] + rest;
      PlainLinesThenDone(mode, next, cmds[1..], rest);
      assert s.queue + cmds == s.queue + [cmds[0]] + cmds[1..];
    }
  }

  /** `quit` after any number of lines that do not stop the loop ends it, whatever is queued. */
  lemma {:induction false} QuitStopsLoop(mode: RunMode, s: State, pre: seq<string>, post: seq<string>)
    requires forall i :: 0 <= i < |pre| ==> Harmless(pre[i])
    ensures var r := Loop(mode, s, pre + ["quit"] + post);
            r.ending == QuitTyped && r.consumed == |pre| + 1
    decreases |pre|
  {
    var lines := pre + ["quit"] + post;
    if pre == [] {
      assert lines[0] == "quit";
    } else {
      var (next, control) := StepState(mode, s, pre[0]);
      assert lines[0] == pre[0] && Harmless(pre[0]);
      HarmlessContinues(Announce(mode, s, pre[0]).queue, pre[0]);
      assert lines[1..] == pre[1..] + ["quit"] + post;
      QuitStopsLoop(mode, next, pre[1..], post);
    }
  }

  /** Input made only of lines that do not stop the loop is read to its end. */
  lemma {:induction false} HarmlessToEnd(mode: RunMode, s: State, lines: seq<string>)
    requires forall i :: 0 <= i < |lines| ==> Harmless(lines[i])
    ensures Loop(mode, s, lines).ending == EndOfInput
    decreases |lines|
  {
    if lines != [] {
      var (next, control) := StepState(mode, s, lines[0]);
      HarmlessContinues(Announce(mode, s, lines[0]).queue, lines[0]);
      HarmlessToEnd(mode, next, lines[1..]);
    }
  }

  // ---------------------------------------------------------------------------
  // The session

  /** RECORD onto an existing script, PLAY of a missing one and an unreadable input abort before any line is read. */
  lemma AbortsBeforeReading(mode: RunMode, name: Option<string>, store: map<string, string>,
                            inputGood: bool, stdin: seq<string>)
    ensures var r := RunSpec(mode, name, store, inputGood, stdin);
            var found := Exists(store, ScriptPath(name));
            && (mode == Record && found ==> r.outcome == Aborted(AlreadyExists))
            && (mode == Play && !found ==> r.outcome == Aborted(DoesNotExist))
            && (!inputGood && !(mode == Record && found) && !(mode == Play && !found) ==>
                  r.outcome == Aborted(CouldNotRead))
            && (r.outcome.Aborted? ==> r.linesRead == 0 && r.console == [] && r.store == store && r.executed == [])
  {
  }

  /** Only a flush has effects: after `quit` or a crash no script is written and nothing is executed. */
  lemma OnlyFlushActs(mode: RunMode, name: Option<string>, store: map<string, string>,
                      inputGood: bool, stdin: seq<string>)
    ensures var r := RunSpec(mode, name, store, inputGood, stdin);
            !r.outcome.Flushed? ==> r.store == store && r.executed == []
  {
  }

  /** The flush on its own: RECORD writes, RUN and PLAY execute, and `quit` or a crash do neither. */
  lemma AfterLoopEffects(mode: RunMode, path: string, store: map<string, string>, r: LoopResult)
    ensures var x := AfterLoop(mode, path, store, r);
            && x.queue == r.state.queue
            && (x.outcome == Flushed <==> r.ending == EndOfInput || r.ending == DoneTyped)
            && (x.outcome != Flushed ==> x.store == store && x.executed == [])
            && (x.outcome == Flushed && mode == Record ==> x.store == WriteScript(store, path, Render(x.queue)) && x.executed == [])
            && (x.outcome == Flushed && mode != Record ==> x.store == store && x.executed == CStrs(x.queue))
  {
  }

  /** The flush: RECORD writes each queued command as one line and executes nothing; RUN and PLAY execute the queue in order. */
  lemma FlushEffects(mode: RunMode, name: Option<string>, store: map<string, string>,
                     inputGood: bool, stdin: seq<string>)
    ensures var r := RunSpec(mode, name, store, inputGood, stdin);
            r.outcome == Flushed ==>
              if mode == Record then r.store == WriteScript(store, ScriptPath(name), Render(r.queue)) && r.executed == []
              else r.store == store && r.executed == CStrs(r.queue)
  {
    var path := ScriptPath(name);
    if !(mode == Record && Exists(store, path)) && !(mode == Play && !Exists(store, path)) && inputGood {
      var lines := if mode == Play then GetLines(store[path]) else stdin;
      AfterLoopEffects(mode, path, store, Loop(mode, Initial, lines));
    }
  }

  /** `quit` typed at any point of a RUN or RECORD session discards the queue. */
  lemma QuitDiscards(mode: RunMode, name: Option<string>, store: map<string, string>,
                     pre: seq<string>, post: seq<string>)
    requires mode != Play
    requires !(mode == Record && Exists(store, ScriptPath(name)))
    requires forall i :: 0 <= i < |pre| ==> Harmless(pre[i])
    ensures var r := RunSpec(mode, name, store, true, pre + ["quit"] + post);
            r.outcome == Cancelled && r.store == store && r.executed == [] && r.linesRead == |pre| + 1
  {
    QuitStopsLoop(mode, Initial, pre, post);
  }

  /** Commands typed into a RECORD session before `done` are its script, one line each, in order. */
  lemma RecordWritesTypedCommands(name: string, store: map<string, string>,
                                  cmds: seq<string>, rest: seq<string>)
    requires !Exists(store, ScriptPath(Some(name)))
    requires AllPlain(cmds) && AllLines(cmds)
    ensures var r := RunSpec(Record, Some(name), store, true, cmds + ["done"] + rest);
            var path := ScriptPath(Some(name));
            && r.outcome == Flushed && r.executed == []
            && path in r.store && r.store[path] == Render(cmds)
            && GetLines(r.store[path]) == CStrs(cmds)
  {
    PlainLinesThenDone(Record, Initial, cmds, rest);
    assert Initial.queue + cmds == cmds;
    GetLinesOfRender(cmds);
  }

  /**
   * A RUN session whose input ends without `done` executes the typed commands
   * in order, each up to its first NUL, and then the empty line of the loop's
   * last pass.
   */
  lemma RunToEndExecutesEmptyLine(store: map<string, string>, cmds: seq<string>)
    requires AllPlain(cmds)
    ensures var r := RunSpec(Run, None, store, true, cmds);
            r.outcome == Flushed && r.executed == CStrs(cmds) + [""] && r.store == store && r.linesRead == |cmds|
  {
    PlainLinesToEnd(Run, Initial, cmds);
    LoopCounts(Run, Initial, cmds);
    assert Initial.queue + cmds == cmds;
    CStrsSnoc(cmds, "");
  }

  /**
   * What RECORD queues from lines without `'\n'` or NUL holds no directive,
   * and its script reads back as exactly that queue.
   */
  lemma RecordedQueueReadsBack(stdin: seq<string>)
    requires AllLines(stdin) && NulFree(stdin)
    ensures var q := Loop(Record, Initial, stdin).state.queue;
            AllPlain(q) && NulFree(q) && GetLines(Render(q)) == q
  {
    var q := Loop(Record, Initial, stdin).state.queue;
    LoopKeepsPlain(Record, Initial, stdin);
    LoopAvoids(Record, Initial, stdin, '\n');
    LoopAvoids(Record, Initial, stdin, '\0');
    GetLinesOfRender(q);
  }

  /** What a RECORD session that reached its flush leaves behind: the script holds its final queue. */
  lemma RecordWritesQueue(name: string, store: map<string, string>, stdin: seq<string>)
    requires RunSpec(Record, Some(name), store, true, stdin).outcome == Flushed
    ensures var rec := RunSpec(Record, Some(name), store, true, stdin);
            var path := ScriptPath(Some(name));
            && rec.queue == Loop(Record, Initial, stdin).state.queue
            && rec.store == store[path := Render(rec.queue)]
  {
  }

  /** Playing a script whose lines are commands without NUL executes exactly those lines, in order. */
  lemma PlayRunsPlainScript(name: string, store: map<string, string>, later: seq<string>)
    requires Exists(store, ScriptPath(Some(name)))
    requires var q := GetLines(store[ScriptPath(Some(name))]); AllPlain(q) && NulFree(q)
    ensures var play := RunSpec(Play, Some(name), store, true, later);
            play.outcome == Flushed && play.executed == GetLines(store[ScriptPath(Some(name))]) && play.store == store
  {
    var q := GetLines(store[ScriptPath(Some(name))]);
    PlainLinesToEnd(Play, Initial, q);
    assert Initial.queue + q == q;
  }

  /**
   * Round trip: playing back what a RECORD session wrote executes exactly the
   * commands it had queued, in order, whatever editing happened while
   * recording, as long as no typed line holds a NUL (see `NulBreaksReplay`).
   */
  lemma PlayReplaysRecording(name: string, store: map<string, string>, stdin: seq<string>, later: seq<string>)
    requires AllLines(stdin) && NulFree(stdin)
    requires RunSpec(Record, Some(name), store, true, stdin).outcome == Flushed
    ensures var rec := RunSpec(Record, Some(name), store, true, stdin);
            var play := RunSpec(Play, Some(name), rec.store, true, later);
            play.outcome == Flushed && play.executed == rec.queue && play.store == rec.store
  {
    var rec := RunSpec(Record, Some(name), store, true, stdin);
    RecordWritesQueue(name, store, stdin);
    RecordedQueueReadsBack(stdin);
    PlayRunsPlainScript(name, rec.store, later);
  }

  /** The command "done\0x" reaches C functions as "done". */
  lemma CStrOfDoneNul()
    ensures CStr("done\0x") == "done"
  {
    var line := "done\0x";
    assert line[1..][1..][1..][1..][0] == '\0';
  }

  /** Recording "done\0x" and then `done` queues that one command and writes the script. */
  lemma RecordDoneNul(name: string, store: map<string, string>)
    requires !Exists(store, ScriptPath(Some(name)))
    ensures var rec := RunSpec(Record, Some(name), store, true, ["done\0x", "done"]);
            var path := ScriptPath(Some(name));
            rec.outcome == Flushed && rec.queue == ["done\0x"] && path in rec.store && rec.store[path] == Render(["done\0x"])
  {
    var line := "done\0x";
    assert line[..4] == "done" && line[..4] != "undo";
    assert Classify(line) == Enqueue;
    var (s1, c1) := StepState(Record, Initial, line);
    assert s1.queue == [line] && c1 == Continue;
    assert ["done\0x", "done"][1..] == ["done"];
    assert Loop(Record, Initial, ["done\0x", "done"]) == Shift(Loop(Record, s1, ["done"]), 1);
  }

  /** The script written for the queue ["done\0x"] reads back as the single line "done". */
  lemma ScriptOfDoneNul()
    ensures GetLines(Render(["done\0x"])) == ["done"]
  {
    CStrOfDoneNul();
    GetLinesOfRender(["done\0x"]);
    assert CStrs(["done\0x"]) == [CStr("done\0x")];
  }

  /** Playing a script that reads back as "done" executes nothing. */
  lemma PlayOfDone(name: string, store: map<string, string>, later: seq<string>)
    requires Exists(store, ScriptPath(Some(name)))
    requires GetLines(store[ScriptPath(Some(name))]) == ["done"]
    ensures var play := RunSpec(Play, Some(name), store, true, later);
            play.outcome == Flushed && play.executed == []
  {
    assert Loop(Play, Initial, ["done"]).state.queue == [];
  }

  /**
   * Why the round trip needs NUL-free lines: the command "done\0x" is queued,
   * but the script receives only "done", and playing it back stops at once.
   */
  lemma NulBreaksReplay(name: string, store: map<string, string>)
    requires !Exists(store, ScriptPath(Some(name)))
    ensures var rec := RunSpec(Record, Some(name), store, true, ["done\0x", "done"]);
            var play := RunSpec(Play, Some(name), rec.store, true, []);
            && rec.outcome == Flushed && rec.queue == ["done\0x"]
            && play.outcome == Flushed && play.executed == []
  {
    RecordDoneNul(name, store);
    ScriptOfDoneNul();
    var rec := RunSpec(Record, Some(name), store, true, ["done\0x", "done"]);
    PlayOfDone(name, rec.store, []);
  }

  // ---------------------------------------------------------------------------
  // Worked sessions

  /** The loop of "mkdir foo", "undo", "mkdir bar", "done": the first command is undone. */
  lemma UndoScenarioLoop()
    ensures var r := Loop(Run, Initial, ["mkdir foo", "undo", "mkdir bar", "done"]);
            r.ending == DoneTyped && r.state.queue == ["mkdir bar"]
  {
    var lines := ["mkdir foo", "undo", "mkdir bar", "done"];
    assert !StartsWithUndo("mkdir foo") by { assert "mkdir foo"[..4][0] == 'm'; }
    assert !StartsWithUndo("mkdir bar") by { assert "mkdir bar"[..4][0] == 'm'; }
    var (s1, _) := StepState(Run, Initial, lines[0]);
    assert s1.queue == ["mkdir foo"];
    var (s2, _) := StepState(Run, s1, lines[1]);
    assert s2.queue == [];
    var (s3, _) := StepState(Run, s2, lines[2]);
    assert s3.queue == ["mkdir bar"];
    var r := Loop(Run, s3, ["done"]);
    assert r.ending == DoneTyped && r.state.queue == ["mkdir bar"];
    assert Loop(Run, s2, lines[2..]) == Shift(r, 1);
    assert Loop(Run, s1, lines[1..]) == Shift(r, 2);
    assert Loop(Run, Initial, lines) == Shift(r, 3);
  }

  /** "mkdir foo", "undo", "mkdir bar", "done": only the second command runs. */
  lemma UndoScenario(store: map<string, string>)
    ensures RunSpec(Run, None, store, true, ["mkdir foo", "undo", "mkdir bar", "done"]).executed == ["mkdir bar"]
  {
    UndoScenarioLoop();
    assert CStrs(["mkdir bar"]) == ["mkdir bar"];
  }

  lemma UndoTwoOfThree()
    ensures Interpret(["a", "b", "c"], "undo 2") == Effect(Continue, ["a", "c"], [Removed(2, "b")])
  {
    StoiOfDecimal(2);
    assert "undo 2"[..4] == "undo" && "undo 2"[5..] == Decimal(2);
    UndoRemovesNth(["a", "b", "c"], "undo 2", 2);
    var e := Interpret(["a", "b", "c"], "undo 2");
    assert |e.queue| == 2 && e.queue[0] == "a" && e.queue[1] == "c";
    assert e.queue == ["a", "c"];
  }

  /** "a", "b", "c", "undo 2", "done": the second command is removed. */
  lemma UndoPositionScenario(store: map<string, string>)
    ensures RunSpec(Run, None, store, true, ["a", "b", "c", "undo 2", "done"]).executed == ["a", "c"]
  {
    var lines := ["a", "b", "c", "undo 2", "done"];
    var (s1, _) := StepState(Run, Initial, "a");
    var (s2, _) := StepState(Run, s1, "b");
    var (s3, _) := StepState(Run, s2, "c");
    assert s3.queue == ["a", "b", "c"];
    UndoTwoOfThree();
    var (s4, c4) := StepState(Run, s3, "undo 2");
    assert s4.queue == ["a", "c"] && c4 == Continue;
    var (s5, c5) := StepState(Run, s4, "done");
    assert s5.queue == ["a", "c"] && c5 == Finish;
    assert Loop(Run, s4, ["done"]).state.queue == ["a", "c"];
    assert Loop(Run, s3, ["undo 2", "done"]).state.queue == ["a", "c"];
    assert Loop(Run, s2, ["c", "undo 2", "done"]).state.queue == ["a", "c"];
    assert Loop(Run, s1, ["b", "c", "undo 2", "done"]).state.queue == ["a", "c"];
    assert Loop(Run, Initial, lines).state.queue == ["a", "c"];
  }

  /** The loop of "a", "b", "undo xyz", "done": a format error after the third line, the queue stays. */
  lemma FormatScenarioLoop()
    ensures var r := Loop(Run, Initial, ["a", "b", "undo xyz", "done"]);
            r.ending == DoneTyped && r.state.queue == ["a", "b"] && FormatError in r.state.console
  {
    StoiWithoutDigits("", "", "xyz");
    assert "undo xyz"[5..] == "" + "" + "xyz";
    UndoGarbageKeeps(["a", "b"], "undo xyz");
    var (s1, _) := StepState(Run, Initial, "a");
    var (s2, _) := StepState(Run, s1, "b");
    assert s2.queue == ["a", "b"];
    var (s3, c3) := StepState(Run, s2, "undo xyz");
    assert s3.queue == ["a", "b"] && c3 == Continue && FormatError in s3.console;
    var r := Loop(Run, s3, ["done"]);
    assert r.ending == DoneTyped && r.state.queue == ["a", "b"] && FormatError in r.state.console;
    assert Loop(Run, s2, ["undo xyz", "done"]) == Shift(r, 1);
    assert Loop(Run, s1, ["b", "undo xyz", "done"]) == Shift(r, 2);
    assert Loop(Run, Initial, ["a", "b", "undo xyz", "done"]) == Shift(r, 3);
  }

  /** "a", "b", "undo xyz", "done": a format error, and both commands run. */
  lemma UndoFormatScenario(store: map<string, string>)
    ensures var r := RunSpec(Run, None, store, true, ["a", "b", "undo xyz", "done"]);
            r.executed == ["a", "b"] && FormatError in r.console
  {
    FormatScenarioLoop();
    assert CStrs(["a", "b"]) == ["a", "b"];
  }

  lemma StoiOfZeroAll()
    ensures Stoi("00all") == Parsed(0)
  {
    StoiOfNumber("", "", "00", "all");
    assert "00all" == "" + "" + "00" + "all";
    assert "00"[..1] == "0" && "0"[..0] == "";
    assert DecimalValue("0") == 0;
    assert DecimalValue("00") == 0;
    assert SignedValue("", "00") == Parsed(0);
  }

  /** "undo 00all" parses as 0 before "all" is ever looked at, so it is a range error. */
  lemma UndoZeroAllScenario()
    ensures Interpret(["a"], "undo 00all") == Effect(Continue, ["a"], [RangeError(1)])
  {
    var line := "undo 00all";
    assert line[..4] == "undo" && line[5..] == "00all";
    StoiOfZeroAll();
    UndoOutOfRange(["a"], line, 0);
  }
}
